=== FILE: README.md ===
# Window-state model of a minimal Wayland/EGL client

This project models the window-state machine of `fixed-minimal-egl.c`. That is a
minimal Wayland client that opens an `xdg_toplevel` window, binds an EGL context to
it, and then runs a frame loop. On frame 60 the loop resizes the window on its own.
The point of the program is the order required by the xdg-shell configure handshake
(`xdg_surface.configure` / `xdg_surface.ack_configure`). A pending geometry change
goes to the native window first. Only after that is the configure acknowledged and
the surface committed.

The model keeps the fields of `wayland_state` that carry logic: `BufferWidth`,
`BufferHeight`, `ShouldUpdateGeometry`, `WaitForConfigure` and `ConfigureSerial`. It
also keeps the global `GlobalRunning`. Every protocol object (compositor, shell base,
decoration manager, toplevel decoration, `wl_egl_window`) is reduced to a presence
bit. Each call into libwayland, wayland-egl, EGL or GL that the model tracks becomes
one abstract request appended to a log:

- `Bind`
- `Pong`
- `CreateDecoration`
- `SetMode`
- `Commit`
- `AckConfigure`
- `Resize`
- `CreateWindow`
- `Present`

`Present` stands for the clear-and-swap at the end of each frame. Every listener is
a pure step on a `Machine`, which is a state plus a log. A dispatch call is a batch
of events delivered in order, or the -1 failure.

Modules, in dependency order:

- `Wrappers`: the `Option` type.
- `Protocol`: the integer widths, interfaces, events, requests and dispatch results.
- `WindowState`: the state record, the machine, and the initial state.
- `Handlers`: the six listeners, `global_remove`, `UpdateGeometry` and batch dispatch.
- `BatchFacts`: what one batch does, stated against reference definitions that read
  the batch from its end.
- `WindowBringUp`: lines 139-178, up to the creation of the native window.
- `FrameLoop`: lines 229-264.
- `Program`: whole runs.

Three behaviours of the code are worth knowing before reading the lemmas:

- When one dispatch delivers several surface configures, only the serial stored last
  is acknowledged (`FrameLoop.IterateAcksLastSerial`). The xdg-shell protocol allows
  this: of several configures, only the one acknowledged before the next commit
  counts.
- Line 231 sets `GlobalRunning = true` on entering the frame loop, so a close
  delivered during bring-up has no effect (`Program.CloseBeforeFirstConfigureIsIgnored`).
- A -1 from the dispatch during the configure wait (lines 165-168) ends the wait
  loop, and the code still acknowledges serial 0 and creates the window
  (`Program.FailedWaitStillCreatesWindow`).

`Protocol.BindVersion` is the table of versions the client binds (4 for
`wl_compositor`, 1 for `xdg_wm_base` and 1 for `zxdg_decoration_manager_v1`, lines 62,
66 and 72). `Handlers.HandleRegistryGlobal` states its contract against that table.

## Model

| member | source | states |
|---|---|---|
| `Protocol.SlotOf` | fixed-minimal-egl.c:60-74 | an advertised interface selects a capability slot exactly when it is one of the three names the client compares against. Any other name is an `Unknown` whose payload excludes those three |
| `WindowState.Initial` | fixed-minimal-egl.c:126-137 | the client starts zero-initialised with a 640x480 buffer: no serial pending, geometry clean, no wait armed, no window or decoration object, nothing bound and not running |
| `Handlers.HandleRegistryGlobal` | fixed-minimal-egl.c:55-75 | a global adds exactly the slot its interface names, with one `Bind` at the fixed version. An unknown interface, or a decoration manager while decorations are compiled out, changes nothing. Geometry, handshake, window and running flag are untouched |
| `Handlers.HandleRegistryGlobalRemove` | fixed-minimal-egl.c:53 | a global removal changes neither state nor log |
| `Handlers.HandleXDGWMBasePing` | fixed-minimal-egl.c:77-80 | a ping is answered by a pong with the same serial and no state change |
| `Handlers.HandleXDGToplevelConfigure` | fixed-minimal-egl.c:82-94 | both sizes non-zero: the buffer takes exactly that size. Either size zero: the buffer size is unchanged. The dirty flag is always set. Handshake, objects, running flag and log are untouched |
| `Handlers.HandleXDGToplevelClose` | fixed-minimal-egl.c:96-99 | a close clears the running flag and changes nothing else |
| `Handlers.HandleXDGSurfaceConfigure` | fixed-minimal-egl.c:101-107 | a surface configure ends the wait and stores its serial. Geometry, objects, running flag and log are untouched |
| `Handlers.HandleXDGToplevelDecorationConfigure` | fixed-minimal-egl.c:109-112 | a decoration configure sends `SetMode` with the received mode and leaves the state unchanged |
| `Handlers.UpdateGeometry` | fixed-minimal-egl.c:114-122 | clears the dirty flag and keeps the size. Sends `Resize` at the stored size if and only if a window exists |
| `Handlers.UpdateGeometryIdempotent` | fixed-minimal-egl.c:114-122 | a second call leaves the same state and sends the same resize again; a resize is sent exactly when a window exists |
| `Handlers.Dispatch` | fixed-minimal-egl.c:128-134 | one event is routed to its listener. A ping sends exactly `Pong(serial)` and a decoration configure exactly `SetMode(mode)`. A global whose interface the client binds sends exactly `Bind(slot, name, fixed version)` and adds that slot to the bound slots; any other global changes nothing. Every other event sends nothing. It clears the running flag only on a close. It never re-arms the wait and never creates a window or decoration. Only a toplevel configure touches geometry, only a surface configure touches the handshake, and only a decoration-manager global binds the manager |
| `Handlers.DispatchAll` | fixed-minimal-egl.c:165-168 | a batch only appends, and only listener requests. It leaves the loop running exactly when it holds no close. It never re-arms the wait and creates neither window nor decoration. What it sends is pinned down by `BatchFacts.DispatchAllAnswers` and `BatchFacts.DispatchAllBinds` |
| `BatchFacts.DispatchAllHandshake` | fixed-minimal-egl.c:101-107 | after a batch the pending serial is that of its last surface configure, or the old one if it has none. The wait ends exactly when the batch holds a surface configure |
| `BatchFacts.DispatchAllGeometry` | fixed-minimal-egl.c:82-94 | after a batch the buffer size is the last size it suggested with both dimensions non-zero. The geometry is dirty exactly when it was already dirty or the batch holds a toplevel configure |
| `BatchFacts.DispatchAllDecorationManager` | fixed-minimal-egl.c:69-74 | a batch binds a decoration manager exactly when decorations are compiled in and the batch advertises one. A bound manager stays bound |
| `BatchFacts.DispatchAnswers` | fixed-minimal-egl.c:77-112 | the pong serials one event sends are its ping serial, if it is a ping, and the set-mode values are its mode, if it is a decoration configure |
| `BatchFacts.DispatchAllAnswers` | fixed-minimal-egl.c:77-112 | a batch answers its pings with pongs carrying the same serials, in the same order, and its decoration configures with set-modes carrying the same modes, in the same order. Nothing else sends a pong or a set-mode |
| `BatchFacts.DispatchBindRequests` | fixed-minimal-egl.c:55-75 | the bind requests one event sends are the one its global causes, if any: into the slot its interface names, with the advertised name and the fixed version |
| `BatchFacts.DispatchBindSlots` | fixed-minimal-egl.c:55-75 | one event adds to the bound slots exactly the slot of the bind its global causes |
| `BatchFacts.DispatchAllBinds` | fixed-minimal-egl.c:55-75 | a batch sends, in order, one `Bind(slot, name, fixed version)` for each global it advertises whose interface the client knows, skipping a decoration manager when decorations are compiled out, and no other bind. The bound slots afterwards are those bound before plus the slots of those binds |
| `WindowBringUp.RequestDecoration` | fixed-minimal-egl.c:153-159 | with a decoration manager bound, sends exactly `CreateDecoration` then `SetMode(server-side)` and marks the decoration present. Without one it changes nothing |
| `WindowBringUp.BeginConfigure` | fixed-minimal-egl.c:161-162 | arms the wait for the first configure and sends one `Commit`, changing nothing else |
| `WindowBringUp.AwaitConfigure` | fixed-minimal-egl.c:164-168 | the wait ends as configured exactly when the wait flag is clear. A wait that is already over returns at once, and a -1 from the first dispatch ends it as failed. It blocks only if no dispatch failed. It sends only listener requests and never creates the window. `WindowBringUp.AwaitConfigureOutcome` states where it ends, and `WindowBringUp.AwaitConfigureAnswers` what it sends |
| `WindowBringUp.WaitEnd` | fixed-minimal-egl.c:165-167 | the position of the first blocking dispatch that fails or delivers a surface configure, or the number of dispatches if there is none. Every earlier dispatch succeeded without a surface configure |
| `WindowBringUp.AwaitConfigureOutcome` | fixed-minimal-egl.c:164-168 | with the wait armed, it ends at `WaitEnd`. It ends as configured exactly when that dispatch succeeded, as failed exactly when it returned -1, and blocked exactly when there is no such dispatch. The pending serial is then the last serial of that batch, or the serial held before the wait. The buffer size is the last usable size among all the events the wait delivered, up to and including that dispatch |
| `WindowBringUp.AwaitConfigureSize` | fixed-minimal-egl.c:164-168 | with the wait armed, the buffer size it leaves is the last size with both dimensions non-zero among the events of every dispatch it consumed, or the size held before the wait |
| `WindowBringUp.AwaitConfigureAnswers` | fixed-minimal-egl.c:164-168 | with the wait armed, the pongs, set-modes and binds it sends are, in order, those called for by every event delivered by the dispatches it consumed, including the dispatches before the one that ended it |
| `WindowBringUp.FirstBatchConfigures` | fixed-minimal-egl.c:164-168 | a first blocking dispatch that delivers a surface configure ends the wait, with the serial of that batch's last surface configure pending |
| `WindowBringUp.FinishBringUp` | fixed-minimal-egl.c:170-178 | with no window yet, sends exactly `AckConfigure(stored serial)` then `CreateWindow(current size)`, with no resize. The serial becomes 0, the geometry is clean and a window exists |
| `WindowBringUp.FinishBringUpCreatesWindowLast` | fixed-minimal-egl.c:170-178 | from a state with no window and a log with no resize or window creation, the finishing step appends exactly the acknowledgement and one `CreateWindow`, and the log still holds no resize |
| `WindowBringUp.BringUp` | fixed-minimal-egl.c:139-178 | a bring-up that is not blocked ends with a window, no pending serial and clean geometry |
| `WindowBringUp.PreparedLog` | fixed-minimal-egl.c:139-168 | before the window is created, the log starts with what the initial roundtrip sent, then `CreateDecoration` and `SetMode(server-side)` when a decoration is requested, then the first `Commit`, and holds only binds, pongs, set-modes, the decoration request and commits. A decoration object exists exactly when decorations are compiled in and a manager was advertised by the initial roundtrip |
| `WindowBringUp.BringUpCreatesWindowLast` | fixed-minimal-egl.c:170-178 | bring-up ends with the acknowledgement of the stored serial followed by the only `CreateWindow`, and sends no `Resize` at all |
| `WindowBringUp.BringUpDecoration` | fixed-minimal-egl.c:153-159 | bring-up requests a decoration object if and only if decorations are compiled in and a decoration manager was advertised by the initial roundtrip |
| `WindowBringUp.BringUpAcksEndingConfigure` | fixed-minimal-egl.c:164-178 | bring-up completes exactly when some blocking dispatch fails or delivers a surface configure. Its last two requests are the acknowledgement of the last serial of the batch that ended the wait, then `CreateWindow` at the last usable size suggested by the initial roundtrip and the wait together, or 640x480 without one. After a -1 the serial is the one left by the initial roundtrip |
| `FrameLoop.StartLoop` | fixed-minimal-egl.c:229-231 | entering the loop sets the counter to 0 and the running flag, and touches nothing else |
| `FrameLoop.ScriptResize` | fixed-minimal-egl.c:241-246 | the scripted change sets 1280x720 and the dirty flag, and touches nothing else |
| `FrameLoop.AckIfPending` | fixed-minimal-egl.c:253-258 | with a serial pending, sends `AckConfigure(serial)` then `Commit` and resets the serial to 0. With none pending it changes nothing |
| `FrameLoop.AfterDispatch` | fixed-minimal-egl.c:241-263 | after the dispatch an iteration sends only resizes, acks, commits and the present. It ends with no serial pending and clean geometry |
| `FrameLoop.AfterDispatchShape` | fixed-minimal-egl.c:241-263 | after the dispatch an iteration sends exactly: a `Resize` at the buffer size if the geometry is dirty once frame 60's change is applied and a window exists, then `AckConfigure(serial)` and `Commit` if a serial is pending, then `Present` |
| `FrameLoop.AfterDispatchGeometry` | fixed-minimal-egl.c:241-251 | with a window, the part after the dispatch applies exactly one size, the buffer size, when the geometry is dirty after frame 60's change, and none otherwise. It keeps that size |
| `FrameLoop.AfterDispatchOrder` | fixed-minimal-egl.c:248-263 | after the dispatch a resize can only come first. The ack of the pending serial comes third from the end, followed by the commit and the present, and only if a serial was pending |
| `FrameLoop.Iterate` | fixed-minimal-egl.c:232-264 | a failed dispatch clears the running flag and changes nothing else: the counter does not advance and nothing is sent. A successful one advances the counter by one and ends with no serial pending and clean geometry. The loop keeps running exactly when the dispatch succeeded without a close. No iteration creates a window or decoration |
| `FrameLoop.IterateResizeBeforeAck` | fixed-minimal-egl.c:248-258 | within one iteration every `Resize` is sent before every `AckConfigure`, and the iteration ends with `Present` |
| `FrameLoop.IterateAcksLastSerial` | fixed-minimal-egl.c:253-258 | with the serial of the last surface configure (or the old one) non-zero, the iteration ends with exactly `AckConfigure(serial)`, `Commit`, `Present` and sends no other ack or commit. With serial 0 it sends neither |
| `FrameLoop.IterateScriptedResize` | fixed-minimal-egl.c:241-251 | on the iteration where the counter reaches 60 the buffer becomes 1280x720. The same iteration sends `Resize(1280,720)` and ends with clean geometry |
| `FrameLoop.IterateAppliesGeometry` | fixed-minimal-egl.c:234-251 | with a window, an iteration that dispatched a batch resizes exactly once when the geometry was dirty, the batch held a toplevel configure, or the counter reaches 60, and not at all otherwise. The size applied and kept is the batch's last usable size, or 1280x720 on frame 60 |
| `FrameLoop.IterateAnswers` | fixed-minimal-egl.c:234-263 | in one iteration the pongs sent carry exactly the serials of the batch's pings, in order, and the set-modes exactly the modes of its decoration configures. The rest of the iteration sends neither |
| `FrameLoop.RunLoop` | fixed-minimal-egl.c:232-264 | the loop only appends, never creates a window or decoration, keeps the window, never re-arms the wait, and never lowers the counter |
| `FrameLoop.RunLoopQuiescent` | fixed-minimal-egl.c:232-264 | at the head of every iteration a window exists, no serial is pending and the geometry is clean |
| `FrameLoop.RunLoopStopsOnlyOnCloseOrFailure` | fixed-minimal-egl.c:232-239 | a running loop is still running exactly when none of its dispatches failed or delivered a close. In that case it ran one frame per dispatch |
| `FrameLoop.RunLoopReachesScriptedFrame` | fixed-minimal-egl.c:241-251 | a loop whose dispatches before frame 60 neither fail nor close, and whose 60th dispatch succeeds, sends `Resize(1280,720)`. A close in that 60th batch does not prevent it |
| `Program.Run` | fixed-minimal-egl.c:124-267 | a run gets past bring-up exactly when bring-up is not blocked, and stops with a window, no pending serial and clean geometry |
| `Program.RunCreatesWindowOnce` | fixed-minimal-egl.c:170-178 | every run sends exactly one `CreateWindow`, right after the bring-up acknowledgement |
| `Program.RunDecoration` | fixed-minimal-egl.c:153-159 | a run sends `CreateDecoration` if and only if decorations are compiled in and a decoration manager was advertised by the initial roundtrip. A manager advertised later is bound but never used, because the check at line 153 runs once |
| `Program.RunWaitStaysOver` | fixed-minimal-egl.c:161-168 | once the first configure has arrived, the wait flag is never set again |
| `Program.RunStopsOnlyOnCloseOrFailure` | fixed-minimal-egl.c:231-239 | the loop is still running exactly when no loop dispatch failed or delivered a close, and then it ran one frame per dispatch |
| `Program.RunResizesOnScriptedFrame` | fixed-minimal-egl.c:241-251 | a run whose first 59 loop dispatches neither fail nor close, and whose 60th loop dispatch succeeds, sends `Resize(1280,720)` |
| `Program.DefaultSizeBringUp` | fixed-minimal-egl.c:136-178 | compositor and shell bound, no decoration manager, then configure(0,0) and surface configure 7: the log is two binds, `Commit`, `AckConfigure(7)`, `CreateWindow(640,480)`, and no decoration is created |
| `Program.CloseBeforeFirstConfigureIsIgnored` | fixed-minimal-egl.c:229-239 | a close delivered while waiting for the first configure does not stop the loop |
| `Program.FailedWaitStillCreatesWindow` | fixed-minimal-egl.c:164-178 | a configure wait ended by a failed dispatch still acknowledges serial 0 and creates a 640x480 window |

## Left out

- EGL bring-up (lines 180-227): display, config, surface and context creation and
  make-current are foreign calls whose results are never checked and hold no state
  this model tracks.
- Rendering (lines 260-263): the clear colour, the clear and `eglSwapBuffers` are
  one opaque `Present` request.
- The connection itself: connecting, `wl_display_roundtrip` and the blocking and
  non-blocking dispatch (lines 139-143, 165-168, 234) are I/O. The roundtrip is a
  given sequence of events, and each dispatch is a given batch of events or the -1
  failure. A failed dispatch is taken to deliver no events.
- Creating the `wl_surface`, `xdg_surface` and `xdg_toplevel` and registering
  listeners (lines 67, 141, 145-151, 157) are not logged. Those objects carry no
  state of their own. A missing compositor or shell base (a null handle in the code)
  is not modelled: bring-up proceeds as if both were bound.
- Interface names are compared with `strcmp` in the code. The model uses an
  enumeration, and the `USE_DECORATIONS` compile flag is a boolean parameter.
- The advertised version of a global is ignored, as in the code. The client binds
  fixed versions 4, 1 and 1.
- The states array of `xdg_toplevel.configure` is carried but ignored, as in the
  code.
- Event sequences are not restricted to what a compositor could send. For example,
  a decoration configure can arrive with no decoration object. Each handler does
  what the code's handler would do if called.
- FrameLoop.Iterate: the frame counter is unbounded. The C `int` counter would
  overflow after 2^31-1 frames, which is undefined behaviour in C, and is not
  modelled.
- Teardown of resources and the process exit code are not modelled. The program
  never releases anything and always returns 0.

=== FILE: batch_facts.dfy ===
/**
  What one batch of events does to the state, stated against reference
  definitions that read the batch from its end: the last surface configure
  decides the pending serial, the last configure with a usable size decides the
  buffer size, and a decoration manager is bound if one was advertised.
 */
module BatchFacts {

  import opened Wrappers
  import opened Protocol
  import opened WindowState
  import opened Handlers

  /** The serial of the last surface configure in `evs`, or `s0` if there is none. */
  function LastSerial(evs: seq<Event>, s0: uint32): uint32
    decreases |evs|
  {
    if |evs| == 0 then s0
    else if evs[|evs| - 1].SurfaceConfigure? then evs[|evs| - 1].serial
    else LastSerial(evs[..|evs| - 1], s0)
  }

  /** The size suggested by the last toplevel configure in `evs` whose width and
      height are both non-zero, or `(w0, h0)` if there is none. */
  function LastSize(evs: seq<Event>, w0: int32, h0: int32): (int32, int32)
    decreases |evs|
  {
    if |evs| == 0 then (w0, h0)
    else
      var e := evs[|evs| - 1];
      if e.ToplevelConfigure? && e.width != 0 && e.height != 0 then (e.width, e.height)
      else LastSize(evs[..|evs| - 1], w0, h0)
  }

  predicate HasSurfaceConfigure(evs: seq<Event>)
  {
    exists i :: 0 <= i < |evs| && evs[i].SurfaceConfigure?
  }

  predicate HasToplevelConfigure(evs: seq<Event>)
  {
    exists i :: 0 <= i < |evs| && evs[i].ToplevelConfigure?
  }

  /** Some event of `evs` advertises a decoration manager global. */
  predicate AdvertisesDecorationManager(evs: seq<Event>)
  {
    exists i :: 0 <= i < |evs| && evs[i].Global? && evs[i].iface == ZxdgDecorationManagerV1
  }

  /** Dispatching a batch is dispatching all but its last event, then the last. */
  lemma {:induction false} DispatchAllSnoc(m: Machine, evs: seq<Event>, useDecorations: bool)
    requires |evs| > 0
    ensures DispatchAll(m, evs, useDecorations)
         == Dispatch(DispatchAll(m, evs[..|evs| - 1], useDecorations), evs[|evs| - 1], useDecorations)
    decreases |evs|
  {
    var m1 := Dispatch(m, evs[0], useDecorations);
    if |evs| == 1 {
      assert evs[1..] == [];
      assert evs[..0] == [];
    } else {
      var rest := evs[1..];
      DispatchAllSnoc(m1, rest, useDecorations);
      assert evs[..|evs| - 1][1..] == rest[..|rest| - 1];
      assert evs[..|evs| - 1][0] == evs[0];
      assert rest[|rest| - 1] == evs[|evs| - 1];
    }
  }

  /** The pending serial after a batch is that of its last surface configure, and
      the wait ends exactly when the batch holds a surface configure. */
  lemma {:induction false} DispatchAllHandshake(m: Machine, evs: seq<Event>, useDecorations: bool)
    ensures var r := DispatchAll(m, evs, useDecorations);
            && r.st.configureSerial == LastSerial(evs, m.st.configureSerial)
            && r.st.waitForConfigure == (m.st.waitForConfigure && !HasSurfaceConfigure(evs))
    decreases |evs|
  {
    if |evs| > 0 {
      var init := evs[..|evs| - 1];
      var e := evs[|evs| - 1];
      DispatchAllSnoc(m, evs, useDecorations);
      DispatchAllHandshake(m, init, useDecorations);
      if HasSurfaceConfigure(init) {
        var i :| 0 <= i < |init| && init[i].SurfaceConfigure?;
        assert evs[i] == init[i];
      }
      if HasSurfaceConfigure(evs) && !e.SurfaceConfigure? {
        var i :| 0 <= i < |evs| && evs[i].SurfaceConfigure?;
        assert init[i] == evs[i];
      }
    }
  }

  /** A batch without a surface configure leaves the serial where it was. */
  lemma {:induction false} LastSerialWithoutConfigure(evs: seq<Event>, s0: uint32)
    requires !HasSurfaceConfigure(evs)
    ensures LastSerial(evs, s0) == s0
    decreases |evs|
  {
    if |evs| > 0 {
      var init := evs[..|evs| - 1];
      forall i | 0 <= i < |init| ensures !init[i].SurfaceConfigure? {
        assert init[i] == evs[i];
      }
      LastSerialWithoutConfigure(init, s0);
    }
  }

  /** In a batch with a surface configure the last serial does not depend on the
      serial held before the batch. */
  lemma {:induction false} LastSerialWithConfigure(evs: seq<Event>, s0: uint32, s1: uint32)
    requires HasSurfaceConfigure(evs)
    ensures LastSerial(evs, s0) == LastSerial(evs, s1)
    decreases |evs|
  {
    var init := evs[..|evs| - 1];
    if !evs[|evs| - 1].SurfaceConfigure? {
      var i :| 0 <= i < |evs| && evs[i].SurfaceConfigure?;
      assert init[i] == evs[i];
      LastSerialWithConfigure(init, s0, s1);
    }
  }

  /** The buffer size after a batch is the last usable size it suggests, and the
      geometry is dirty exactly when it was, or the batch holds a toplevel configure. */
  lemma {:induction false} DispatchAllGeometry(m: Machine, evs: seq<Event>, useDecorations: bool)
    ensures var r := DispatchAll(m, evs, useDecorations);
            && (r.st.bufferWidth, r.st.bufferHeight) == LastSize(evs, m.st.bufferWidth, m.st.bufferHeight)
            && r.st.shouldUpdateGeometry == (m.st.shouldUpdateGeometry || HasToplevelConfigure(evs))
    decreases |evs|
  {
    if |evs| > 0 {
      var init := evs[..|evs| - 1];
      var e := evs[|evs| - 1];
      DispatchAllSnoc(m, evs, useDecorations);
      DispatchAllGeometry(m, init, useDecorations);
      var before := DispatchAll(m, init, useDecorations);
      if e.ToplevelConfigure? {
        var after := HandleXDGToplevelConfigure(before, e.width, e.height, e.states);
        assert Dispatch(before, e, useDecorations) == after;
      }
      if HasToplevelConfigure(init) {
        var i :| 0 <= i < |init| && init[i].ToplevelConfigure?;
        assert evs[i] == init[i];
      }
      if HasToplevelConfigure(evs) && !e.ToplevelConfigure? {
        var i :| 0 <= i < |evs| && evs[i].ToplevelConfigure?;
        assert init[i] == evs[i];
      }
    }
  }

  /** The last usable size of two batches in a row is that of the second batch,
      starting from the last usable size of the first. */
  lemma {:induction false} LastSizeAppend(a: seq<Event>, b: seq<Event>, w0: int32, h0: int32)
    ensures var s := LastSize(a, w0, h0);
            LastSize(a + b, w0, h0) == LastSize(b, s.0, s.1)
    decreases |b|
  {
    if |b| == 0 {
      assert a + b == a;
    } else {
      assert (a + b)[..|a + b| - 1] == a + b[..|b| - 1];
      LastSizeAppend(a, b[..|b| - 1], w0, h0);
    }
  }

  /** A batch binds a decoration manager exactly when decorations are compiled in
      and the batch advertises one; nothing ever unbinds it. */
  lemma {:induction false} DispatchAllDecorationManager(m: Machine, evs: seq<Event>, useDecorations: bool)
    ensures DispatchAll(m, evs, useDecorations).st.decorationManager
            == (m.st.decorationManager || (useDecorations && AdvertisesDecorationManager(evs)))
    decreases |evs|
  {
    if |evs| > 0 {
      var init := evs[..|evs| - 1];
      var e := evs[|evs| - 1];
      DispatchAllSnoc(m, evs, useDecorations);
      DispatchAllDecorationManager(m, init, useDecorations);
      if AdvertisesDecorationManager(init) {
        var i :| 0 <= i < |init| && init[i].Global? && init[i].iface == ZxdgDecorationManagerV1;
        assert evs[i] == init[i];
      }
      if AdvertisesDecorationManager(evs) && !(e.Global? && e.iface == ZxdgDecorationManagerV1) {
        var i :| 0 <= i < |evs| && evs[i].Global? && evs[i].iface == ZxdgDecorationManagerV1;
        assert init[i] == evs[i];
      }
    }
  }

  /** The values `pick` selects from `s`, in order. */
  function Picked<T, U>(s: seq<T>, pick: T -> Option<U>): seq<U>
    decreases |s|
  {
    if |s| == 0 then []
    else Picked(s[..|s| - 1], pick) + (match pick(s[|s| - 1]) case Some(v) => [v] case None => [])
  }

  lemma {:induction false} PickedAppend<T, U>(a: seq<T>, b: seq<T>, pick: T -> Option<U>)
    ensures Picked(a + b, pick) == Picked(a, pick) + Picked(b, pick)
    decreases |b|
  {
    if |b| == 0 {
      assert a + b == a;
    } else {
      assert (a + b)[..|a + b| - 1] == a + b[..|b| - 1];
      PickedAppend(a, b[..|b| - 1], pick);
    }
  }

  /** Nothing is picked from a sequence of which `pick` selects no element. */
  lemma {:induction false} PickedNone<T, U>(s: seq<T>, pick: T -> Option<U>)
    requires forall k :: 0 <= k < |s| ==> pick(s[k]).None?
    ensures Picked(s, pick) == []
    decreases |s|
  {
    if |s| > 0 {
      PickedNone(s[..|s| - 1], pick);
    }
  }

  /** If `early` picks what `a` picks, and `late` what `b` picks, then together
      they pick what `a` followed by `b` picks. */
  lemma PickedStep<S, T, U>(early: seq<S>, late: seq<S>, a: seq<T>, b: seq<T>,
                            pickS: S -> Option<U>, pickT: T -> Option<U>)
    requires Picked(early, pickS) == Picked(a, pickT)
    requires Picked(late, pickS) == Picked(b, pickT)
    ensures Picked(early + late, pickS) == Picked(a + b, pickT)
  {
    PickedAppend(early, late, pickS);
    PickedAppend(a, b, pickT);
  }

  /** The serial of a ping event. */
  function PingSerial(e: Event): Option<uint32>
  {
    if e.Ping? then Some(e.serial) else None
  }

  /** The mode of a decoration configure event. */
  function DecorationMode(e: Event): Option<uint32>
  {
    if e.DecorationConfigure? then Some(e.mode) else None
  }

  /** The serial of a pong request. */
  function PongSerial(q: Request): Option<uint32>
  {
    if q.Pong? then Some(q.serial) else None
  }

  /** The mode of a set-mode request. */
  function SetModeValue(q: Request): Option<uint32>
  {
    if q.SetMode? then Some(q.mode) else None
  }

  /** One event is answered with a pong for a ping and a set-mode for a decoration
      configure, and with neither otherwise. */
  lemma DispatchAnswers(m: Machine, e: Event, useDecorations: bool)
    ensures var r := Dispatch(m, e, useDecorations);
            && Picked(Emitted(m, r), PongSerial) == Picked([e], PingSerial)
            && Picked(Emitted(m, r), SetModeValue) == Picked([e], DecorationMode)
  {
    var r := Dispatch(m, e, useDecorations);
    var out := Emitted(m, r);
    assert [e][..0] == [];
    if |out| == 1 {
      assert out[..0] == [];
    }
  }

  /** A batch answers its pings with pongs carrying the same serials, in the same
      order, and its decoration configures with set-modes carrying the same modes. */
  lemma {:induction false} DispatchAllAnswers(m: Machine, evs: seq<Event>, useDecorations: bool)
    ensures var r := DispatchAll(m, evs, useDecorations);
            && Picked(Emitted(m, r), PongSerial) == Picked(evs, PingSerial)
            && Picked(Emitted(m, r), SetModeValue) == Picked(evs, DecorationMode)
    decreases |evs|
  {
    if |evs| == 0 {
      assert Emitted(m, DispatchAll(m, evs, useDecorations)) == [];
    } else {
      var init := evs[..|evs| - 1];
      var e := evs[|evs| - 1];
      DispatchAllSnoc(m, evs, useDecorations);
      DispatchAllAnswers(m, init, useDecorations);
      var before := DispatchAll(m, init, useDecorations);
      var r := Dispatch(before, e, useDecorations);
      DispatchAnswers(before, e, useDecorations);
      EmittedConcat(m, before, r);
      assert init + [e] == evs;
      PickedStep(Emitted(m, before), Emitted(before, r), init, [e], PongSerial, PingSerial);
      PickedStep(Emitted(m, before), Emitted(before, r), init, [e], SetModeValue, DecorationMode);
    }
  }

  /** The bind request a global event causes, if any. */
  function GlobalBind(e: Event, useDecorations: bool): Option<Request>
  {
    if e.Global? && Binds(e.iface, useDecorations)
    then Some(Bind(SlotOf(e.iface).value, e.name, BindVersion(SlotOf(e.iface).value)))
    else None
  }

  /** `GlobalBind` as a selector for `Picked`. */
  function BindsOf(useDecorations: bool): Event -> Option<Request>
  {
    (e: Event) => GlobalBind(e, useDecorations)
  }

  /** A bind request. */
  function BindRequest(q: Request): Option<Request>
  {
    if q.Bind? then Some(q) else None
  }

  /** The slots the bind requests among `qs` bind into. */
  function SlotsOf(qs: seq<Request>): set<Slot>
  {
    set q | q in qs && q.Bind? :: q.slot
  }

  lemma SlotsOfAppend(a: seq<Request>, b: seq<Request>)
    ensures SlotsOf(a + b) == SlotsOf(a) + SlotsOf(b)
  {
  }

  /** If `init` adds its binds' slots to `b0`, giving `b1`, and `e` adds its bind's
      slot to `b1`, giving `b2`, then `init` followed by `e` adds its binds' slots
      to `b0`, giving `b2`. */
  lemma SlotsStep<T>(b0: set<Slot>, b1: set<Slot>, b2: set<Slot>, init: seq<T>, e: T,
                     pick: T -> Option<Request>)
    requires b1 == b0 + SlotsOf(Picked(init, pick))
    requires b2 == b1 + SlotsOf(Picked([e], pick))
    ensures b2 == b0 + SlotsOf(Picked(init + [e], pick))
  {
    PickedAppend(init, [e], pick);
    SlotsOfAppend(Picked(init, pick), Picked([e], pick));
  }

  /** One event sends the bind request its global causes, and no other bind. */
  lemma DispatchBindRequests(m: Machine, e: Event, useDecorations: bool)
    ensures var r := Dispatch(m, e, useDecorations);
            Picked(Emitted(m, r), BindRequest) == Picked([e], BindsOf(useDecorations))
  {
    var r := Dispatch(m, e, useDecorations);
    var out := Emitted(m, r);
    var pick := BindsOf(useDecorations);
    assert [e][..0] == [];
    if e.Global? && Binds(e.iface, useDecorations) {
      var q := Bind(SlotOf(e.iface).value, e.name, BindVersion(SlotOf(e.iface).value));
      assert pick(e) == Some(q);
      assert out == [q] && out[..0] == [];
    } else {
      assert pick(e) == None;
      forall k | 0 <= k < |out| ensures BindRequest(out[k]).None? {
        assert ListenerRequest(out[k]) && !out[k].Bind?;
      }
      PickedNone(out, BindRequest);
    }
  }

  /** One event adds the slot of the bind its global causes to the bound slots, and
      nothing else. */
  lemma DispatchBindSlots(m: Machine, e: Event, useDecorations: bool)
    ensures var r := Dispatch(m, e, useDecorations);
            Bound(r.st) == Bound(m.st) + SlotsOf(Picked([e], BindsOf(useDecorations)))
  {
    var r := Dispatch(m, e, useDecorations);
    var pick := BindsOf(useDecorations);
    assert [e][..0] == [];
    if e.Global? && Binds(e.iface, useDecorations) {
      var q := Bind(SlotOf(e.iface).value, e.name, BindVersion(SlotOf(e.iface).value));
      assert pick(e) == Some(q);
      assert SlotsOf([q]) == {q.slot};
    } else {
      assert pick(e) == None;
      if !e.Global? {
        assert SameObjects(r.st, m.st);
      }
    }
  }

  /** A batch binds, in order, exactly the globals it advertises whose interface the
      client knows, skipping a decoration manager when decorations are compiled
      out; each bind names the advertised global and the client's fixed version.
      The slots bound afterwards are those bound before plus those binds' slots. */
  lemma {:induction false} DispatchAllBinds(m: Machine, evs: seq<Event>, useDecorations: bool)
    ensures var r := DispatchAll(m, evs, useDecorations);
            var binds := Picked(evs, BindsOf(useDecorations));
            && Picked(Emitted(m, r), BindRequest) == binds
            && Bound(r.st) == Bound(m.st) + SlotsOf(binds)
    decreases |evs|
  {
    if |evs| == 0 {
      assert Emitted(m, DispatchAll(m, evs, useDecorations)) == [];
    } else {
      var init := evs[..|evs| - 1];
      var e := evs[|evs| - 1];
      DispatchAllSnoc(m, evs, useDecorations);
      DispatchAllBinds(m, init, useDecorations);
      var before := DispatchAll(m, init, useDecorations);
      var r := Dispatch(before, e, useDecorations);
      DispatchBindRequests(before, e, useDecorations);
      DispatchBindSlots(before, e, useDecorations);
      EmittedConcat(m, before, r);
      assert init + [e] == evs;
      PickedStep(Emitted(m, before), Emitted(before, r), init, [e], BindRequest, BindsOf(useDecorations));
      SlotsStep(Bound(m.st), Bound(before.st), Bound(r.st), init, e, BindsOf(useDecorations));
    }
  }
}

=== FILE: bring_up.dfy ===
/**
  Bring-up of the window, up to the creation of the native window: global
  discovery, the optional decoration request, the first commit, the blocking wait
  for the first configure, and the acknowledgement that precedes window creation.
  EGL initialisation that follows is not part of this model.
 */
module WindowBringUp {

  import opened Wrappers
  import opened Protocol
  import opened WindowState
  import opened Handlers
  import opened BatchFacts

  /** Request a decoration object for the toplevel, and server-side decorations,
      when a decoration manager was bound. */
  function RequestDecoration(m: Machine): (r: Machine)
    ensures Extends(m, r)
    ensures r.st.toplevelDecoration == (m.st.toplevelDecoration || m.st.decorationManager)
    ensures m.st.decorationManager ==> Emitted(m, r) == [CreateDecoration, SetMode(ModeServerSide)]
    ensures !m.st.decorationManager ==> r == m
    ensures SameGeometry(r.st, m.st) && SameHandshake(r.st, m.st) && SameCapabilities(r.st, m.st)
    ensures r.st.window == m.st.window && r.st.running == m.st.running
  {
    if m.st.decorationManager then
      var m1 := m.(st := m.st.(toplevelDecoration := true));
      Emit(Emit(m1, CreateDecoration), SetMode(ModeServerSide))
    else
      m
  }

  /** Arm the wait for the first configure and commit the still empty surface. */
  function BeginConfigure(m: Machine): (r: Machine)
    ensures r.st.waitForConfigure
    ensures r.log == m.log + [Commit]
    ensures SameGeometry(r.st, m.st) && SameObjects(r.st, m.st)
    ensures r.st.configureSerial == m.st.configureSerial && r.st.running == m.st.running
  {
    Emit(m.(st := m.st.(waitForConfigure := true)), Commit)
  }

  /** How the blocking wait for the first configure ends. */
  datatype Wait =
    | Configured(m: Machine)  // a surface configure arrived
    | Failed(m: Machine)      // a dispatch returned -1 first
    | Blocked(m: Machine)     // the dispatch results ran out with the wait still armed

  /** Dispatch, blocking, until the first configure has arrived or a dispatch fails. */
  function AwaitConfigure(m: Machine, ds: seq<DispatchResult>, useDecorations: bool): (r: Wait)
    ensures Extends(m, r.m)
    ensures forall q :: q in Emitted(m, r.m) ==> ListenerRequest(q)
    ensures r.Configured? <==> !r.m.st.waitForConfigure
    ensures !m.st.waitForConfigure ==> r == Configured(m)
    ensures r.Blocked? ==> forall i :: 0 <= i < |ds| ==> ds[i].Dispatched?
    ensures m.st.waitForConfigure && |ds| > 0 && ds[0].DispatchFailed? ==> r == Failed(m)
    ensures r.m.st.window == m.st.window && r.m.st.toplevelDecoration == m.st.toplevelDecoration
    decreases |ds|
  {
    if !m.st.waitForConfigure then Configured(m)
    else if |ds| == 0 then Blocked(m)
    else match ds[0]
      case DispatchFailed => Failed(m)
      case Dispatched(evs) =>
        var m1 := DispatchAll(m, evs, useDecorations);
        var r := AwaitConfigure(m1, ds[1..], useDecorations);
        EmittedConcat(m, m1, r.m);
        assert r.Blocked? ==> forall i :: 0 <= i < |ds| ==> ds[i].Dispatched? by {
          if r.Blocked? {
            forall i | 0 <= i < |ds| ensures ds[i].Dispatched? {
              if i > 0 { assert ds[i] == ds[1..][i - 1]; }
            }
          }
        }
        r
  }

  /** When the first dispatch delivers a surface configure, the wait ends after that
      dispatch, with the serial of the batch's last surface configure pending. */
  lemma FirstBatchConfigures(m: Machine, evs: seq<Event>, rest: seq<DispatchResult>, useDecorations: bool)
    requires m.st.waitForConfigure && HasSurfaceConfigure(evs)
    ensures var r := AwaitConfigure(m, [Dispatched(evs)] + rest, useDecorations);
            && r == Configured(DispatchAll(m, evs, useDecorations))
            && r.m.st.configureSerial == LastSerial(evs, m.st.configureSerial)
  {
    DispatchAllHandshake(m, evs, useDecorations);
    assert ([Dispatched(evs)] + rest)[1..] == rest;
  }

  /** The position of the first blocking dispatch that fails or delivers a surface
      configure, or `|ds|` if there is none: every earlier dispatch succeeded without
      a surface configure. */
  function WaitEnd(ds: seq<DispatchResult>): (k: nat)
    ensures k <= |ds|
    ensures forall i :: 0 <= i < k ==> ds[i].Dispatched? && !HasSurfaceConfigure(ds[i].events)
    ensures k < |ds| ==> ds[k].DispatchFailed? || HasSurfaceConfigure(ds[k].events)
    decreases |ds|
  {
    if |ds| == 0 then 0
    else if ds[0].DispatchFailed? || HasSurfaceConfigure(ds[0].events) then 0
    else
      var k := 1 + WaitEnd(ds[1..]);
      assert forall i :: 1 <= i < |ds| ==> ds[i] == ds[1..][i - 1];
      k
  }

  /** The events the dispatch results `ds` delivered, in order; a -1 delivers none. */
  function Delivered(ds: seq<DispatchResult>): seq<Event>
    decreases |ds|
  {
    if |ds| == 0 then []
    else Delivered(ds[..|ds| - 1]) + (match ds[|ds| - 1] case Dispatched(evs) => evs case DispatchFailed => [])
  }

  lemma {:induction false} DeliveredCons(d: DispatchResult, ds: seq<DispatchResult>)
    ensures Delivered([d] + ds) == Delivered([d]) + Delivered(ds)
    decreases |ds|
  {
    if |ds| == 0 {
      assert [d] + ds == [d];
    } else {
      assert ([d] + ds)[..|[d] + ds| - 1] == [d] + ds[..|ds| - 1];
      DeliveredCons(d, ds[..|ds| - 1]);
    }
  }

  /** The dispatch results the wait for the first configure consumes: all of them up
      to and including the one at `WaitEnd(ds)`. */
  function WaitPrefix(ds: seq<DispatchResult>): (p: seq<DispatchResult>)
    ensures p <= ds
  {
    var k := WaitEnd(ds);
    if k < |ds| then ds[..k + 1] else ds
  }

  /** A wait that ends at its first dispatch result delivers that result's events. */
  lemma WaitDeliveredFirst(ds: seq<DispatchResult>)
    requires |ds| > 0 && (ds[0].DispatchFailed? || HasSurfaceConfigure(ds[0].events))
    ensures Delivered(WaitPrefix(ds)) == (if ds[0].Dispatched? then ds[0].events else [])
  {
    assert WaitPrefix(ds) == [ds[0]];
    assert [ds[0]][..0] == [];
  }

  /** A wait that goes on past its first dispatch result delivers that result's
      events, then those of the rest of the wait. */
  lemma WaitDeliveredCons(ds: seq<DispatchResult>)
    requires |ds| > 0 && ds[0].Dispatched? && !HasSurfaceConfigure(ds[0].events)
    ensures Delivered(WaitPrefix(ds)) == ds[0].events + Delivered(WaitPrefix(ds[1..]))
  {
    var k := WaitEnd(ds[1..]);
    assert WaitEnd(ds) == k + 1;
    assert WaitPrefix(ds) == [ds[0]] + WaitPrefix(ds[1..]);
    DeliveredCons(ds[0], WaitPrefix(ds[1..]));
    assert Delivered([ds[0]]) == ds[0].events by {
      assert [ds[0]][..0] == [];
    }
  }

  /** A dispatch during the wait that succeeds hands the wait on to the rest of the
      results, from the machine the batch left. */
  lemma AwaitConfigureStep(m: Machine, ds: seq<DispatchResult>, useDecorations: bool)
    requires m.st.waitForConfigure && |ds| > 0 && ds[0].Dispatched?
    ensures AwaitConfigure(m, ds, useDecorations)
            == AwaitConfigure(DispatchAll(m, ds[0].events, useDecorations), ds[1..], useDecorations)
  {
  }

  /** The buffer size the wait leaves is the last usable size among all the events
      it delivered. */
  lemma {:induction false} AwaitConfigureSize(m: Machine, ds: seq<DispatchResult>, useDecorations: bool)
    requires m.st.waitForConfigure
    ensures var r := AwaitConfigure(m, ds, useDecorations);
            (r.m.st.bufferWidth, r.m.st.bufferHeight)
            == LastSize(Delivered(WaitPrefix(ds)), m.st.bufferWidth, m.st.bufferHeight)
    decreases |ds|
  {
    if |ds| == 0 {
      assert Delivered(WaitPrefix(ds)) == [];
    } else if ds[0].DispatchFailed? {
      WaitDeliveredFirst(ds);
    } else {
      var evs := ds[0].events;
      var m1 := DispatchAll(m, evs, useDecorations);
      AwaitConfigureStep(m, ds, useDecorations);
      DispatchAllHandshake(m, evs, useDecorations);
      DispatchAllGeometry(m, evs, useDecorations);
      if HasSurfaceConfigure(evs) {
        WaitDeliveredFirst(ds);
      } else {
        AwaitConfigureSize(m1, ds[1..], useDecorations);
        WaitDeliveredCons(ds);
        LastSizeAppend(evs, Delivered(WaitPrefix(ds[1..])), m.st.bufferWidth, m.st.bufferHeight);
      }
    }
  }

  /** If every batch sends, in order, the values `pickQ` selects exactly as its events
      call for them through `pickE`, then so does the whole wait for the first
      configure, over all the events it delivered. */
  lemma {:induction false} AwaitConfigurePicked<U>(m: Machine, ds: seq<DispatchResult>, useDecorations: bool,
                                                   pickQ: Request -> Option<U>, pickE: Event -> Option<U>)
    requires m.st.waitForConfigure
    requires forall m1: Machine, evs: seq<Event> ::
               Picked(Emitted(m1, DispatchAll(m1, evs, useDecorations)), pickQ) == Picked(evs, pickE)
    ensures var r := AwaitConfigure(m, ds, useDecorations);
            Picked(Emitted(m, r.m), pickQ) == Picked(Delivered(WaitPrefix(ds)), pickE)
    decreases |ds|
  {
    if |ds| == 0 {
      assert Delivered(WaitPrefix(ds)) == [];
      assert Emitted(m, m) == [];
    } else if ds[0].DispatchFailed? {
      WaitDeliveredFirst(ds);
      assert Emitted(m, m) == [];
    } else {
      var evs := ds[0].events;
      var m1 := DispatchAll(m, evs, useDecorations);
      var r := AwaitConfigure(m1, ds[1..], useDecorations);
      AwaitConfigureStep(m, ds, useDecorations);
      DispatchAllHandshake(m, evs, useDecorations);
      if HasSurfaceConfigure(evs) {
        WaitDeliveredFirst(ds);
        assert r.m == m1;
      } else {
        AwaitConfigurePicked(m1, ds[1..], useDecorations, pickQ, pickE);
        WaitDeliveredCons(ds);
        EmittedConcat(m, m1, r.m);
        PickedStep(Emitted(m, m1), Emitted(m1, r.m), evs, Delivered(WaitPrefix(ds[1..])), pickQ, pickE);
      }
    }
  }

  /** The wait for the first configure answers every event it delivered, including
      those of the dispatches before the one that ended it: the pongs, set-modes and
      binds it sends are those the delivered events call for, in order. */
  lemma AwaitConfigureAnswers(m: Machine, ds: seq<DispatchResult>, useDecorations: bool)
    requires m.st.waitForConfigure
    ensures var r := AwaitConfigure(m, ds, useDecorations);
            var evs := Delivered(WaitPrefix(ds));
            && Picked(Emitted(m, r.m), PongSerial) == Picked(evs, PingSerial)
            && Picked(Emitted(m, r.m), SetModeValue) == Picked(evs, DecorationMode)
            && Picked(Emitted(m, r.m), BindRequest) == Picked(evs, BindsOf(useDecorations))
  {
    forall m1: Machine, evs: seq<Event>
      ensures Picked(Emitted(m1, DispatchAll(m1, evs, useDecorations)), PongSerial) == Picked(evs, PingSerial)
      ensures Picked(Emitted(m1, DispatchAll(m1, evs, useDecorations)), SetModeValue) == Picked(evs, DecorationMode)
    {
      DispatchAllAnswers(m1, evs, useDecorations);
    }
    forall m1: Machine, evs: seq<Event>
      ensures Picked(Emitted(m1, DispatchAll(m1, evs, useDecorations)), BindRequest)
              == Picked(evs, BindsOf(useDecorations))
    {
      DispatchAllBinds(m1, evs, useDecorations);
    }
    AwaitConfigurePicked(m, ds, useDecorations, PongSerial, PingSerial);
    AwaitConfigurePicked(m, ds, useDecorations, SetModeValue, DecorationMode);
    AwaitConfigurePicked(m, ds, useDecorations, BindRequest, BindsOf(useDecorations));
  }

  /** The wait for the first configure ends at `WaitEnd(ds)`: configured when that
      dispatch succeeded, failed when it returned -1, and blocked when there is no
      such dispatch. The serial left pending is the last one that dispatch
      delivered, or the one held before the wait, and the buffer size is the last
      usable size among all the events the wait delivered. */
  lemma {:induction false} AwaitConfigureOutcome(m: Machine, ds: seq<DispatchResult>, useDecorations: bool)
    requires m.st.waitForConfigure
    ensures var r := AwaitConfigure(m, ds, useDecorations);
            var k := WaitEnd(ds);
            && (r.Blocked? <==> k == |ds|)
            && (r.Failed? <==> k < |ds| && ds[k].DispatchFailed?)
            && (r.Configured? <==> k < |ds| && ds[k].Dispatched?)
            && r.m.st.configureSerial
               == (if r.Configured? then LastSerial(ds[k].events, m.st.configureSerial)
                   else m.st.configureSerial)
            && (r.m.st.bufferWidth, r.m.st.bufferHeight)
               == LastSize(Delivered(WaitPrefix(ds)), m.st.bufferWidth, m.st.bufferHeight)
    decreases |ds|
  {
    AwaitConfigureSize(m, ds, useDecorations);
    if |ds| > 0 && ds[0].Dispatched? {
      var evs := ds[0].events;
      var m1 := DispatchAll(m, evs, useDecorations);
      DispatchAllHandshake(m, evs, useDecorations);
      assert AwaitConfigure(m, ds, useDecorations) == AwaitConfigure(m1, ds[1..], useDecorations);
      if !HasSurfaceConfigure(evs) {
        LastSerialWithoutConfigure(evs, m.st.configureSerial);
        AwaitConfigureOutcome(m1, ds[1..], useDecorations);
        var k := WaitEnd(ds[1..]);
        assert WaitEnd(ds) == k + 1;
        if k < |ds[1..]| {
          assert ds[k + 1] == ds[1..][k];
        }
      }
    }
  }

  /** Acknowledge the pending configure, apply a dirty geometry, and create the
      native window at the current buffer size. */
  function FinishBringUp(m: Machine): (r: Machine)
    ensures Extends(m, r)
    ensures r.st.window && r.st.configureSerial == 0 && !r.st.shouldUpdateGeometry
    ensures r.st.bufferWidth == m.st.bufferWidth && r.st.bufferHeight == m.st.bufferHeight
    ensures !m.st.window ==>
              Emitted(m, r) == [AckConfigure(m.st.configureSerial),
                                CreateWindow(m.st.bufferWidth, m.st.bufferHeight)]
    ensures r.st.waitForConfigure == m.st.waitForConfigure && r.st.running == m.st.running
    ensures SameCapabilities(r.st, m.st) && r.st.toplevelDecoration == m.st.toplevelDecoration
  {
    var m2 := Machine(m.st.(configureSerial := 0), m.log + [AckConfigure(m.st.configureSerial)]);
    var m3 := if m2.st.shouldUpdateGeometry then UpdateGeometry(m2) else m2;
    assert m3.st.configureSerial == 0 && !m3.st.shouldUpdateGeometry;
    assert m3.st.bufferWidth == m.st.bufferWidth && m3.st.bufferHeight == m.st.bufferHeight;
    assert m3.st.waitForConfigure == m.st.waitForConfigure && m3.st.running == m.st.running;
    assert SameObjects(m3.st, m.st);
    assert !m.st.window ==> m3.log == m.log + [AckConfigure(m.st.configureSerial)];
    assert m3.log[..|m.log|] == m.log;
    var st := m3.st.(window := true);
    Machine(st, m3.log + [CreateWindow(st.bufferWidth, st.bufferHeight)])
  }

  /** Bring-up from program start to the created native window: `discovery` is what
      the initial roundtrip delivers and `waits` the results of the blocking
      dispatches. `None` when the client is still blocked waiting for its first
      configure. */
  function BringUp(discovery: seq<Event>, waits: seq<DispatchResult>, useDecorations: bool): (r: Option<Machine>)
    ensures r.Some? ==> r.value.st.window && r.value.st.configureSerial == 0
    ensures r.Some? ==> !r.value.st.shouldUpdateGeometry
  {
    match Prepared(discovery, waits, useDecorations)
    case Blocked(_) => None
    case Configured(m3) => Some(FinishBringUp(m3))
    case Failed(m3) => Some(FinishBringUp(m3))
  }

  /** The machine just before `FinishBringUp`, and how the wait ended. */
  function Prepared(discovery: seq<Event>, waits: seq<DispatchResult>, useDecorations: bool): Wait
  {
    var m1 := DispatchAll(Initial(), discovery, useDecorations);
    AwaitConfigure(BeginConfigure(RequestDecoration(m1)), waits, useDecorations)
  }

  /** Before the window is created the log holds only binds, pongs, the decoration
      requests and the first commit, and no window exists. It starts with what the
      initial roundtrip sent, then the decoration requests if any, then the first
      commit. */
  lemma {:induction false} PreparedLog(discovery: seq<Event>, waits: seq<DispatchResult>, useDecorations: bool)
    ensures var w := Prepared(discovery, waits, useDecorations);
            var decorated := useDecorations && AdvertisesDecorationManager(discovery);
            var pre := DispatchAll(Initial(), discovery, useDecorations).log
                       + (if decorated then [CreateDecoration, SetMode(ModeServerSide)] else [])
                       + [Commit];
            && !w.m.st.window
            && |pre| <= |w.m.log| && w.m.log[..|pre|] == pre
            && (forall q :: q in w.m.log ==> ListenerRequest(q) || q.CreateDecoration? || q.Commit?)
            && (CreateDecoration in w.m.log <==> useDecorations && AdvertisesDecorationManager(discovery))
            && (w.m.st.toplevelDecoration <==> useDecorations && AdvertisesDecorationManager(discovery))
  {
    var m0 := Initial();
    var m1 := DispatchAll(m0, discovery, useDecorations);
    var m2 := RequestDecoration(m1);
    var m3 := BeginConfigure(m2);
    var w := AwaitConfigure(m3, waits, useDecorations);
    assert m1.log == Emitted(m0, m1);
    assert m3.log == m1.log + Emitted(m1, m2) + [Commit];
    assert w.m.log == m3.log + Emitted(m3, w.m);
    DispatchAllDecorationManager(m0, discovery, useDecorations);
    assert CreateDecoration !in m1.log;
    assert CreateDecoration !in Emitted(m3, w.m);
    if m1.st.decorationManager {
      assert CreateDecoration in Emitted(m1, m2);
    } else {
      assert Emitted(m1, m2) == [];
    }
  }

  /** From a machine with no window and a log holding no resize or window creation,
      `FinishBringUp` appends exactly the acknowledgement and the one window creation,
      and the log still holds no resize. */
  lemma FinishBringUpCreatesWindowLast(m: Machine)
    requires !m.st.window
    requires forall q :: q in m.log ==> !q.Resize? && !q.CreateWindow?
    ensures var log := FinishBringUp(m).log;
            && log == m.log + [AckConfigure(m.st.configureSerial),
                               CreateWindow(m.st.bufferWidth, m.st.bufferHeight)]
            && WindowsCreated(log) == 1
            && (forall q :: q in log ==> !q.Resize?)
  {
    var tail := [AckConfigure(m.st.configureSerial), CreateWindow(m.st.bufferWidth, m.st.bufferHeight)];
    assert FinishBringUp(m).log == m.log + tail;
    WindowsCreatedNone(m.log);
    WindowsCreatedAppend(m.log, tail);
    assert WindowsCreated(tail) == 1 by {
      assert tail[..1] == [AckConfigure(m.st.configureSerial)];
      assert tail[..1][..0] == [];
    }
  }

  /** Bring-up creates exactly one window, as its last request, right after
      acknowledging the configure serial it holds; the serial is then cleared and
      the geometry clean, and no resize was sent since no window existed yet. */
  lemma BringUpCreatesWindowLast(discovery: seq<Event>, waits: seq<DispatchResult>, useDecorations: bool)
    ensures var w := Prepared(discovery, waits, useDecorations);
            var r := BringUp(discovery, waits, useDecorations);
            r.Some? ==>
              var log := r.value.log;
              && log == w.m.log + [AckConfigure(w.m.st.configureSerial),
                                   CreateWindow(w.m.st.bufferWidth, w.m.st.bufferHeight)]
              && WindowsCreated(log) == 1
              && (forall q :: q in log ==> !q.Resize?)
  {
    var w := Prepared(discovery, waits, useDecorations);
    PreparedLog(discovery, waits, useDecorations);
    var r := BringUp(discovery, waits, useDecorations);
    if r.Some? {
      assert r.value == FinishBringUp(w.m);
      FinishBringUpCreatesWindowLast(w.m);
    }
  }

  /** Bring-up completes exactly when some blocking dispatch fails or delivers a
      surface configure. The window is created right after acknowledging the last
      serial of the batch that ended the wait; after a -1 it acknowledges the serial
      left by the initial roundtrip, which is 0 unless that roundtrip delivered a
      surface configure. The window is created at the last usable size suggested
      by the roundtrip and the wait together, or at 640x480 if there was none. */
  lemma BringUpAcksEndingConfigure(discovery: seq<Event>, waits: seq<DispatchResult>, useDecorations: bool)
    ensures var k := WaitEnd(waits);
            var r := BringUp(discovery, waits, useDecorations);
            && (r.Some? <==> k < |waits|)
            && (r.Some? ==>
                  var log := r.value.log;
                  var acked := if waits[k].Dispatched? then LastSerial(waits[k].events, 0)
                               else LastSerial(discovery, 0);
                  var size := LastSize(discovery + Delivered(WaitPrefix(waits)), InitialWidth, InitialHeight);
                  && |log| >= 2
                  && log[|log| - 2] == AckConfigure(acked)
                  && log[|log| - 1] == CreateWindow(size.0, size.1))
  {
    var m0 := Initial();
    var m1 := DispatchAll(m0, discovery, useDecorations);
    DispatchAllHandshake(m0, discovery, useDecorations);
    DispatchAllGeometry(m0, discovery, useDecorations);
    LastSizeAppend(discovery, Delivered(WaitPrefix(waits)), InitialWidth, InitialHeight);
    var m2 := BeginConfigure(RequestDecoration(m1));
    assert m2.st.configureSerial == LastSerial(discovery, 0);
    assert (m2.st.bufferWidth, m2.st.bufferHeight) == LastSize(discovery, InitialWidth, InitialHeight);
    var w := AwaitConfigure(m2, waits, useDecorations);
    assert w == Prepared(discovery, waits, useDecorations);
    AwaitConfigureOutcome(m2, waits, useDecorations);
    BringUpCreatesWindowLast(discovery, waits, useDecorations);
    var k := WaitEnd(waits);
    if w.Configured? {
      LastSerialWithConfigure(waits[k].events, m2.st.configureSerial, 0);
    }
  }

  /** Bring-up creates a decoration object exactly when decorations are compiled in
      and the initial roundtrip advertised a decoration manager. */
  lemma BringUpDecoration(discovery: seq<Event>, waits: seq<DispatchResult>, useDecorations: bool)
    ensures var r := BringUp(discovery, waits, useDecorations);
            r.Some? ==>
              && (CreateDecoration in r.value.log <==> useDecorations && AdvertisesDecorationManager(discovery))
              && (r.value.st.toplevelDecoration <==> useDecorations && AdvertisesDecorationManager(discovery))
  {
    var w := Prepared(discovery, waits, useDecorations);
    PreparedLog(discovery, waits, useDecorations);
    var r := BringUp(discovery, waits, useDecorations);
    if r.Some? {
      assert r.value == FinishBringUp(w.m);
      assert r.value.log == w.m.log + Emitted(w.m, r.value);
    }
  }
}

=== FILE: frame_loop.dfy ===
/**
  The frame loop: each iteration drains the already queued events without
  blocking, advances the frame counter, applies the scripted resize on frame 60,
  applies a dirty geometry, acknowledges a pending configure and commits, then
  clears and presents.
 */
module FrameLoop {

  import opened Wrappers
  import opened Protocol
  import opened WindowState
  import opened Handlers
  import opened BatchFacts

  /** The loop's state: the machine and the frame counter. */
  datatype Frame = Frame(m: Machine, counter: nat)

  /** Enter the loop: the counter starts at 0 and the loop is marked running. */
  function StartLoop(m: Machine): (r: Frame)
    ensures r.counter == 0 && r.m.st.running
    ensures r.m.log == m.log
    ensures SameGeometry(r.m.st, m.st) && SameHandshake(r.m.st, m.st) && SameObjects(r.m.st, m.st)
  {
    Frame(m.(st := m.st.(running := true)), 0)
  }

  /** The scripted geometry change the loop makes on its own. */
  function ScriptResize(m: Machine): (r: Machine)
    ensures r.st.bufferWidth == ScriptedWidth && r.st.bufferHeight == ScriptedHeight
    ensures r.st.shouldUpdateGeometry
    ensures SameHandshake(r.st, m.st) && SameObjects(r.st, m.st) && r.st.running == m.st.running
    ensures r.log == m.log
  {
    m.(st := m.st.(bufferWidth := ScriptedWidth, bufferHeight := ScriptedHeight,
                   shouldUpdateGeometry := true))
  }

  /** Acknowledge the pending configure, if any, commit, and clear the serial. */
  function AckIfPending(m: Machine): (r: Machine)
    ensures r.st.configureSerial == 0
    ensures m.st.configureSerial != 0 ==>
              r.log == m.log + [AckConfigure(m.st.configureSerial), Commit]
    ensures m.st.configureSerial == 0 ==> r == m
    ensures SameGeometry(r.st, m.st) && SameObjects(r.st, m.st)
    ensures r.st.waitForConfigure == m.st.waitForConfigure && r.st.running == m.st.running
  {
    if m.st.configureSerial != 0 then
      var m1 := Emit(Emit(m, AckConfigure(m.st.configureSerial)), Commit);
      m1.(st := m1.st.(configureSerial := 0))
    else
      m
  }

  /** The part of an iteration after the events were dispatched and the counter
      advanced to `counter`. */
  function AfterDispatch(m: Machine, counter: nat): (r: Machine)
    ensures Extends(m, r)
    ensures forall q :: q in Emitted(m, r) ==> q.Resize? || q.AckConfigure? || q.Commit? || q.Present?
    ensures r.st.configureSerial == 0 && !r.st.shouldUpdateGeometry
    ensures SameObjects(r.st, m.st)
    ensures r.st.waitForConfigure == m.st.waitForConfigure && r.st.running == m.st.running
  {
    var m1 := if counter == ScriptedFrame then ScriptResize(m) else m;
    var m2 := if m1.st.shouldUpdateGeometry then UpdateGeometry(m1) else m1;
    Emit(AckIfPending(m2), Present)
  }

  /** One iteration of the loop on dispatch result `d`. A failed dispatch stops the
      loop and skips the rest of the iteration. */
  function Iterate(f: Frame, d: DispatchResult, useDecorations: bool): (r: Frame)
    ensures Extends(f.m, r.m) && CreatesNothing(Emitted(f.m, r.m))
    ensures d.DispatchFailed? ==>
              r.counter == f.counter && r.m.log == f.m.log && !r.m.st.running
              && SameGeometry(r.m.st, f.m.st) && SameHandshake(r.m.st, f.m.st)
              && SameObjects(r.m.st, f.m.st)
    ensures d.Dispatched? ==>
              r.counter == f.counter + 1 && r.m.st.configureSerial == 0
              && !r.m.st.shouldUpdateGeometry
    ensures r.m.st.running == (f.m.st.running && d.Dispatched? && NoClose(d.events))
    ensures r.m.st.window == f.m.st.window
    ensures !f.m.st.waitForConfigure ==> !r.m.st.waitForConfigure
  {
    match d
    case DispatchFailed => Frame(f.m.(st := f.m.st.(running := false)), f.counter)
    case Dispatched(evs) =>
      var m1 := DispatchAll(f.m, evs, useDecorations);
      var m2 := AfterDispatch(m1, f.counter + 1);
      var head := Emitted(f.m, m1);
      var tail := Emitted(m1, m2);
      assert CreatesNothing(head) && CreatesNothing(tail);
      EmittedConcat(f.m, m1, m2);
      CreatesNothingConcat(head, tail);
      assert m2.st.running == (f.m.st.running && NoClose(evs));
      Frame(m2, f.counter + 1)
  }

  /** Run the loop while it is marked running, one iteration per dispatch result. */
  function RunLoop(f: Frame, ds: seq<DispatchResult>, useDecorations: bool): (r: Frame)
    ensures Extends(f.m, r.m) && CreatesNothing(Emitted(f.m, r.m))
    ensures r.m.st.window == f.m.st.window
    ensures !f.m.st.waitForConfigure ==> !r.m.st.waitForConfigure
    ensures r.counter >= f.counter
    decreases |ds|
  {
    if !f.m.st.running || |ds| == 0 then f
    else
      var f1 := Iterate(f, ds[0], useDecorations);
      var r := RunLoop(f1, ds[1..], useDecorations);
      EmittedConcat(f.m, f1.m, r.m);
      CreatesNothingConcat(Emitted(f.m, f1.m), Emitted(f1.m, r.m));
      r
  }

  /** The requests an iteration sends after dispatching its events. */
  lemma AfterDispatchShape(m: Machine, counter: nat)
    ensures var r := AfterDispatch(m, counter);
            var m1 := if counter == ScriptedFrame then ScriptResize(m) else m;
            var resize := if m1.st.shouldUpdateGeometry && m.st.window
                          then [Resize(m1.st.bufferWidth, m1.st.bufferHeight)] else [];
            var ack := if m.st.configureSerial != 0
                       then [AckConfigure(m.st.configureSerial), Commit] else [];
            Emitted(m, r) == resize + ack + [Present]
  {
  }

  /** The order facts of an optional resize, then an optional acknowledgement with
      its commit, then the present. */
  lemma ShapeOrder(out: seq<Request>, resize: seq<Request>, ser: uint32)
    requires |resize| <= 1 && (|resize| == 1 ==> resize[0].Resize?)
    requires out == resize + (if ser != 0 then [AckConfigure(ser), Commit] else []) + [Present]
    ensures |out| > 0 && out[|out| - 1] == Present
    ensures forall i :: 0 <= i < |out| && out[i].Resize? ==> i == 0
    ensures forall j :: 0 <= j < |out| && out[j].AckConfigure? ==>
              ser != 0 && j == |out| - 3 && out[j] == AckConfigure(ser)
    ensures forall j :: 0 <= j < |out| && out[j].Commit? ==> ser != 0 && j == |out| - 2
    ensures ser != 0 ==> |out| >= 3 && out[|out| - 3..] == [AckConfigure(ser), Commit, Present]
  {
    var ack: seq<Request> := if ser != 0 then [AckConfigure(ser), Commit] else [];
    var n := |out|;
    assert n == |resize| + |ack| + 1;
    forall i | 0 <= i < n
      ensures || (i < |resize| && out[i].Resize?)
              || (ser != 0 && i == n - 3 && out[i] == AckConfigure(ser))
              || (ser != 0 && i == n - 2 && out[i] == Commit)
              || (i == n - 1 && out[i] == Present)
    {
      if i < |resize| {
        assert out[i] == resize[i];
      } else if i < |resize| + |ack| {
        assert out[i] == ack[i - |resize|];
      } else {
        assert out[i] == Present;
      }
    }
    if ser != 0 {
      assert out[n - 3..] == [out[n - 3], out[n - 2], out[n - 1]];
    }
  }

  /** After the dispatch, a resize can only come first and an acknowledgement
      only third from the end, followed by the commit. */
  lemma AfterDispatchOrder(m: Machine, counter: nat)
    ensures var out := Emitted(m, AfterDispatch(m, counter));
            && |out| > 0 && out[|out| - 1] == Present
            && (forall i :: 0 <= i < |out| && out[i].Resize? ==> i == 0)
            && (forall j :: 0 <= j < |out| && out[j].AckConfigure? ==>
                  m.st.configureSerial != 0 && j == |out| - 3 && out[j] == AckConfigure(m.st.configureSerial))
            && (forall j :: 0 <= j < |out| && out[j].Commit? ==> m.st.configureSerial != 0 && j == |out| - 2)
            && (m.st.configureSerial != 0 ==> |out| >= 3 && out[|out| - 3..] == [AckConfigure(m.st.configureSerial), Commit, Present])
  {
    AfterDispatchShape(m, counter);
    var m1 := if counter == ScriptedFrame then ScriptResize(m) else m;
    var resize := if m1.st.shouldUpdateGeometry && m.st.window
                  then [Resize(m1.st.bufferWidth, m1.st.bufferHeight)] else [];
    ShapeOrder(Emitted(m, AfterDispatch(m, counter)), resize, m.st.configureSerial);
  }

  /** An iteration's requests: those of its listeners, then those sent after the
      dispatch. */
  lemma IterateSplit(f: Frame, evs: seq<Event>, useDecorations: bool)
    ensures var m1 := DispatchAll(f.m, evs, useDecorations);
            var r := Iterate(f, Dispatched(evs), useDecorations);
            && r.m == AfterDispatch(m1, f.counter + 1)
            && Extends(f.m, m1) && Extends(m1, r.m)
            && Emitted(f.m, r.m) == Emitted(f.m, m1) + Emitted(m1, r.m)
            && forall k :: 0 <= k < |Emitted(f.m, m1)| ==> ListenerRequest(Emitted(f.m, m1)[k])
  {
    var m1 := DispatchAll(f.m, evs, useDecorations);
    var r := Iterate(f, Dispatched(evs), useDecorations);
    EmittedConcat(f.m, m1, r.m);
    var head := Emitted(f.m, m1);
    forall k | 0 <= k < |head| ensures ListenerRequest(head[k]) {
      assert head[k] in head;
    }
  }

  /** Listener requests followed by a tail that resizes only first: every resize
      precedes every acknowledgement. */
  lemma ResizeBeforeAckInConcat(head: seq<Request>, tail: seq<Request>)
    requires forall k :: 0 <= k < |head| ==> ListenerRequest(head[k])
    requires forall i :: 0 <= i < |tail| && tail[i].Resize? ==> i == 0
    requires forall j :: 0 <= j < |tail| && tail[j].AckConfigure? ==> j > 0 || !tail[0].Resize?
    ensures var out := head + tail;
            forall i, j :: 0 <= i < |out| && 0 <= j < |out| && out[i].Resize? && out[j].AckConfigure? ==> i < j
  {
    var out := head + tail;
    forall i, j | 0 <= i < |out| && 0 <= j < |out| && out[i].Resize? && out[j].AckConfigure?
      ensures i < j
    {
      assert !ListenerRequest(out[i]) && !ListenerRequest(out[j]);
      assert out[i] == tail[i - |head|] && out[j] == tail[j - |head|];
    }
  }

  /** Listener requests followed by a tail that acknowledges `s` third from the end
      and commits second from the end, and nowhere else. */
  lemma AckPositionsInConcat(head: seq<Request>, tail: seq<Request>, s: uint32)
    requires forall k :: 0 <= k < |head| ==> ListenerRequest(head[k])
    requires forall j :: 0 <= j < |tail| && tail[j].AckConfigure? ==> s != 0 && j == |tail| - 3
    requires forall j :: 0 <= j < |tail| && tail[j].Commit? ==> s != 0 && j == |tail| - 2
    requires s != 0 ==> |tail| >= 3 && tail[|tail| - 3..] == [AckConfigure(s), Commit, Present]
    ensures var out := head + tail;
            && (s != 0 ==> |out| >= 3 && out[|out| - 3..] == [AckConfigure(s), Commit, Present])
            && (forall i :: 0 <= i < |out| && out[i].AckConfigure? ==> s != 0 && i == |out| - 3)
            && (forall i :: 0 <= i < |out| && out[i].Commit? ==> s != 0 && i == |out| - 2)
  {
    var out := head + tail;
    if s != 0 {
      assert out[|out| - 3..] == tail[|tail| - 3..];
    }
    forall i | 0 <= i < |out| && (out[i].AckConfigure? || out[i].Commit?)
      ensures i >= |head| && out[i] == tail[i - |head|]
    {
      assert !ListenerRequest(out[i]);
    }
  }

  /** Appending requests that are neither pongs nor set-modes changes neither the
      pong serials nor the set-mode values of a log. */
  lemma AnswersIgnoreTail(head: seq<Request>, tail: seq<Request>)
    requires forall q :: q in tail ==> q.Resize? || q.AckConfigure? || q.Commit? || q.Present?
    ensures Picked(head + tail, PongSerial) == Picked(head, PongSerial)
    ensures Picked(head + tail, SetModeValue) == Picked(head, SetModeValue)
  {
    forall k | 0 <= k < |tail| ensures PongSerial(tail[k]).None? && SetModeValue(tail[k]).None? {
      assert tail[k] in tail;
    }
    PickedNone(tail, PongSerial);
    PickedNone(tail, SetModeValue);
    PickedAppend(head, tail, PongSerial);
    PickedAppend(head, tail, SetModeValue);
  }

  /** Within one iteration the pings of the drained batch are answered with pongs
      carrying the same serials, in order, and its decoration configures with
      set-modes carrying the same modes; the rest of the iteration sends neither. */
  lemma IterateAnswers(f: Frame, evs: seq<Event>, useDecorations: bool)
    ensures var r := Iterate(f, Dispatched(evs), useDecorations);
            && Extends(f.m, r.m)
            && Picked(Emitted(f.m, r.m), PongSerial) == Picked(evs, PingSerial)
            && Picked(Emitted(f.m, r.m), SetModeValue) == Picked(evs, DecorationMode)
  {
    var m1 := DispatchAll(f.m, evs, useDecorations);
    var m2 := AfterDispatch(m1, f.counter + 1);
    DispatchAllAnswers(f.m, evs, useDecorations);
    EmittedConcat(f.m, m1, m2);
    AnswersIgnoreTail(Emitted(f.m, m1), Emitted(m1, m2));
    assert Iterate(f, Dispatched(evs), useDecorations).m == m2;
  }

  /** The size a resize request applies. */
  function ResizeOf(q: Request): Option<(int32, int32)>
  {
    if q.Resize? then Some((q.width, q.height)) else None
  }

  /** Listener requests apply no size. */
  lemma ListenerRequestsResizeNothing(head: seq<Request>)
    requires forall k :: 0 <= k < |head| ==> ListenerRequest(head[k])
    ensures Picked(head, ResizeOf) == []
  {
    forall k | 0 <= k < |head| ensures ResizeOf(head[k]).None? {
      assert ListenerRequest(head[k]);
    }
    PickedNone(head, ResizeOf);
  }

  /** An optional acknowledgement with its commit, then the present, apply no size. */
  lemma AckPresentResizeNothing(ser: uint32)
    ensures Picked((if ser != 0 then [AckConfigure(ser), Commit] else []) + [Present], ResizeOf) == []
  {
    var rest := (if ser != 0 then [AckConfigure(ser), Commit] else []) + [Present];
    forall k | 0 <= k < |rest| ensures ResizeOf(rest[k]).None? {
    }
    PickedNone(rest, ResizeOf);
  }

  /** With a window, the part of an iteration after the dispatch resizes the window
      exactly once, at the buffer size, when the geometry is dirty after the
      scripted change of frame 60, and not at all otherwise; the size is kept. */
  lemma AfterDispatchGeometry(m: Machine, counter: nat)
    requires m.st.window
    ensures var r := AfterDispatch(m, counter);
            var ms := if counter == ScriptedFrame then ScriptResize(m) else m;
            && Extends(m, r)
            && r.st.bufferWidth == ms.st.bufferWidth && r.st.bufferHeight == ms.st.bufferHeight
            && Picked(Emitted(m, r), ResizeOf)
               == (if ms.st.shouldUpdateGeometry then [(ms.st.bufferWidth, ms.st.bufferHeight)] else [])
  {
    var r := AfterDispatch(m, counter);
    var ms := if counter == ScriptedFrame then ScriptResize(m) else m;
    AfterDispatchShape(m, counter);
    var resize := if ms.st.shouldUpdateGeometry then [Resize(ms.st.bufferWidth, ms.st.bufferHeight)] else [];
    var rest := (if m.st.configureSerial != 0 then [AckConfigure(m.st.configureSerial), Commit] else []) + [Present];
    assert Emitted(m, r) == resize + rest;
    AckPresentResizeNothing(m.st.configureSerial);
    PickedAppend(resize, rest, ResizeOf);
    if |resize| == 1 {
      assert resize[..0] == [];
    }
  }

  /** With a window, an iteration that dispatched `evs` resizes the window exactly
      once when the geometry is dirty by then (it was already, the batch held a
      toplevel configure, or the counter reaches 60), and not at all otherwise.
      The size applied, and kept, is the last usable size of the batch, or
      1280x720 on frame 60. */
  lemma IterateAppliesGeometry(f: Frame, evs: seq<Event>, useDecorations: bool)
    requires f.m.st.window
    ensures var r := Iterate(f, Dispatched(evs), useDecorations);
            var scripted := f.counter + 1 == ScriptedFrame;
            var size := if scripted then (ScriptedWidth, ScriptedHeight)
                        else LastSize(evs, f.m.st.bufferWidth, f.m.st.bufferHeight);
            var dirty := f.m.st.shouldUpdateGeometry || HasToplevelConfigure(evs) || scripted;
            && Extends(f.m, r.m)
            && (r.m.st.bufferWidth, r.m.st.bufferHeight) == size
            && Picked(Emitted(f.m, r.m), ResizeOf) == (if dirty then [size] else [])
  {
    var m1 := DispatchAll(f.m, evs, useDecorations);
    var r := Iterate(f, Dispatched(evs), useDecorations);
    IterateSplit(f, evs, useDecorations);
    DispatchAllGeometry(f.m, evs, useDecorations);
    AfterDispatchGeometry(m1, f.counter + 1);
    ListenerRequestsResizeNothing(Emitted(f.m, m1));
    PickedAppend(Emitted(f.m, m1), Emitted(m1, r.m), ResizeOf);
  }

  /** Within one iteration every resize is sent before the acknowledgement, and the
      iteration ends by presenting. */
  lemma IterateResizeBeforeAck(f: Frame, evs: seq<Event>, useDecorations: bool)
    ensures var r := Iterate(f, Dispatched(evs), useDecorations);
            var out := Emitted(f.m, r.m);
            && |out| > 0 && out[|out| - 1] == Present
            && forall i, j :: 0 <= i < |out| && 0 <= j < |out| && out[i].Resize? && out[j].AckConfigure? ==> i < j
  {
    var m1 := DispatchAll(f.m, evs, useDecorations);
    var r := Iterate(f, Dispatched(evs), useDecorations);
    IterateSplit(f, evs, useDecorations);
    AfterDispatchOrder(m1, f.counter + 1);
    var tail := Emitted(m1, r.m);
    forall j | 0 <= j < |tail| && tail[j].AckConfigure? ensures j > 0 || !tail[0].Resize? {
    }
    ResizeBeforeAckInConcat(Emitted(f.m, m1), tail);
  }

  /** An iteration acknowledges the serial of the last surface configure it
      dispatched (or the one already pending) exactly once, then commits, and
      neither acknowledges nor commits when no serial is pending. */
  lemma IterateAcksLastSerial(f: Frame, evs: seq<Event>, useDecorations: bool)
    ensures var r := Iterate(f, Dispatched(evs), useDecorations);
            var out := Emitted(f.m, r.m);
            var s := LastSerial(evs, f.m.st.configureSerial);
            && r.m.st.configureSerial == 0
            && (s != 0 ==> |out| >= 3 && out[|out| - 3..] == [AckConfigure(s), Commit, Present])
            && (forall i :: 0 <= i < |out| && out[i].AckConfigure? ==> s != 0 && i == |out| - 3)
            && (forall i :: 0 <= i < |out| && out[i].Commit? ==> s != 0 && i == |out| - 2)
  {
    var m1 := DispatchAll(f.m, evs, useDecorations);
    var r := Iterate(f, Dispatched(evs), useDecorations);
    IterateSplit(f, evs, useDecorations);
    DispatchAllHandshake(f.m, evs, useDecorations);
    AfterDispatchOrder(m1, f.counter + 1);
    var s := m1.st.configureSerial;
    var head := Emitted(f.m, m1);
    var tail := Emitted(m1, r.m);
    assert s == LastSerial(evs, f.m.st.configureSerial);
    AckPositionsInConcat(head, tail, s);
    assert Emitted(f.m, r.m) == head + tail;
  }

  /** On frame 60 the buffer becomes 1280x720 and that size is applied to the
      native window in the same iteration, leaving the geometry clean. */
  lemma IterateScriptedResize(f: Frame, evs: seq<Event>, useDecorations: bool)
    requires f.counter + 1 == ScriptedFrame && f.m.st.window
    ensures var r := Iterate(f, Dispatched(evs), useDecorations);
            && r.m.st.bufferWidth == ScriptedWidth && r.m.st.bufferHeight == ScriptedHeight
            && !r.m.st.shouldUpdateGeometry
            && Resize(ScriptedWidth, ScriptedHeight) in Emitted(f.m, r.m)
  {
    var m1 := DispatchAll(f.m, evs, useDecorations);
    var r := Iterate(f, Dispatched(evs), useDecorations);
    assert Emitted(f.m, r.m) == Emitted(f.m, m1) + Emitted(m1, r.m);
    AfterDispatchShape(m1, f.counter + 1);
  }

  /** The state at the head of every iteration: a window exists, no configure is
      pending and the geometry is clean. */
  predicate Quiescent(st: State)
  {
    st.window && st.configureSerial == 0 && !st.shouldUpdateGeometry
  }

  /** A dispatch result that lets the loop go on. */
  predicate KeepsRunning(d: DispatchResult)
  {
    d.Dispatched? && NoClose(d.events)
  }

  /** The loop keeps the head-of-iteration state. */
  lemma {:induction false} RunLoopQuiescent(f: Frame, ds: seq<DispatchResult>, useDecorations: bool)
    requires Quiescent(f.m.st)
    ensures Quiescent(RunLoop(f, ds, useDecorations).m.st)
    decreases |ds|
  {
    if f.m.st.running && |ds| > 0 {
      RunLoopQuiescent(Iterate(f, ds[0], useDecorations), ds[1..], useDecorations);
    }
  }

  /** A running loop is still running after `ds` exactly when no result of `ds` is a
      failed dispatch or delivers a close, and then it has run one frame per result. */
  lemma {:induction false} RunLoopStopsOnlyOnCloseOrFailure(f: Frame, ds: seq<DispatchResult>, useDecorations: bool)
    requires f.m.st.running
    ensures var r := RunLoop(f, ds, useDecorations);
            && (r.m.st.running <==> forall i :: 0 <= i < |ds| ==> KeepsRunning(ds[i]))
            && (r.m.st.running ==> r.counter == f.counter + |ds|)
    decreases |ds|
  {
    if |ds| > 0 {
      var f1 := Iterate(f, ds[0], useDecorations);
      if f1.m.st.running {
        RunLoopStopsOnlyOnCloseOrFailure(f1, ds[1..], useDecorations);
        if forall i :: 0 <= i < |ds[1..]| ==> KeepsRunning(ds[1..][i]) {
          forall i | 0 <= i < |ds| ensures KeepsRunning(ds[i]) {
            if i > 0 { assert ds[i] == ds[1..][i - 1]; }
          }
        } else {
          var i :| 0 <= i < |ds[1..]| && !KeepsRunning(ds[1..][i]);
          assert ds[i + 1] == ds[1..][i];
        }
      } else {
        assert !KeepsRunning(ds[0]);
      }
    }
  }

  /** A loop whose dispatches before frame 60 neither fail nor deliver a close, and
      whose 60th dispatch succeeds, sends the scripted 1280x720 resize to the native
      window (a close in that 60th batch only stops the loop after the frame). */
  lemma {:induction false} RunLoopReachesScriptedFrame(f: Frame, ds: seq<DispatchResult>, useDecorations: bool)
    requires f.m.st.running && f.m.st.window
    requires f.counter < ScriptedFrame <= f.counter + |ds|
    requires forall i :: 0 <= i < ScriptedFrame - f.counter - 1 ==> KeepsRunning(ds[i])
    requires ds[ScriptedFrame - f.counter - 1].Dispatched?
    ensures Resize(ScriptedWidth, ScriptedHeight) in Emitted(f.m, RunLoop(f, ds, useDecorations).m)
    decreases |ds|
  {
    var f1 := Iterate(f, ds[0], useDecorations);
    var r1 := RunLoop(f1, ds[1..], useDecorations);
    assert RunLoop(f, ds, useDecorations) == r1;
    EmittedConcat(f.m, f1.m, r1.m);
    if f.counter + 1 == ScriptedFrame {
      IterateScriptedResize(f, ds[0].events, useDecorations);
    } else {
      assert KeepsRunning(ds[0]);
      forall i | 0 <= i < ScriptedFrame - f1.counter - 1 ensures KeepsRunning(ds[1..][i]) {
        assert ds[1..][i] == ds[i + 1];
      }
      assert ds[1..][ScriptedFrame - f1.counter - 1] == ds[ScriptedFrame - f.counter - 1];
      RunLoopReachesScriptedFrame(f1, ds[1..], useDecorations);
    }
  }
}

=== FILE: handlers.dfy ===
/**
  The listener callbacks of fixed-minimal-egl.c and `UpdateGeometry`, each a pure
  step on the machine, and the dispatch of a batch of events through them.
  `useDecorations` stands for the `USE_DECORATIONS` compile-time flag.
 */
module Handlers {

  import opened Protocol
  import opened WindowState

  /** `wl_registry.global`: bind the global into the slot its interface names. A
      decoration manager is bound only when decorations are compiled in. */
  function HandleRegistryGlobal(m: Machine, name: uint32, iface: Interface, useDecorations: bool): (r: Machine)
    ensures SlotOf(iface).None? ==> r == m
    ensures iface == ZxdgDecorationManagerV1 && !useDecorations ==> r == m
    ensures SlotOf(iface).Some? && (iface != ZxdgDecorationManagerV1 || useDecorations) ==>
              var slot := SlotOf(iface).value;
              && Bound(r.st) == Bound(m.st) + {slot}
              && r.log == m.log + [Bind(slot, name, BindVersion(slot))]
    ensures r.st.decorationManager == (m.st.decorationManager || (useDecorations && iface == ZxdgDecorationManagerV1))
    ensures SameGeometry(r.st, m.st) && SameHandshake(r.st, m.st)
    ensures r.st.toplevelDecoration == m.st.toplevelDecoration && r.st.window == m.st.window
    ensures r.st.running == m.st.running
  {
    if iface == WlCompositor then
      Emit(m.(st := m.st.(compositor := true)), Bind(CompositorSlot, name, 4))
    else if iface == XdgWmBase then
      Emit(m.(st := m.st.(wmBase := true)), Bind(WmBaseSlot, name, 1))
    else if iface == ZxdgDecorationManagerV1 then
      if useDecorations then
        Emit(m.(st := m.st.(decorationManager := true)), Bind(DecorationManagerSlot, name, 1))
      else
        m
    else
      m
  }

  /** `wl_registry.global_remove`: ignored. */
  function HandleRegistryGlobalRemove(m: Machine, name: uint32): (r: Machine)
    ensures r == m
  {
    m
  }

  /** `xdg_wm_base.ping`: answer with a pong carrying the same serial. */
  function HandleXDGWMBasePing(m: Machine, serial: uint32): (r: Machine)
    ensures r.st == m.st
    ensures r.log == m.log + [Pong(serial)]
  {
    Emit(m, Pong(serial))
  }

  /** `xdg_toplevel.configure`: take the suggested size when both dimensions are
      non-zero (zero means "no suggestion"), and mark the geometry dirty. */
  function HandleXDGToplevelConfigure(m: Machine, width: int32, height: int32, states: seq<uint32>): (r: Machine)
    ensures width != 0 && height != 0 ==>
              r.st.bufferWidth == width && r.st.bufferHeight == height
    ensures width == 0 || height == 0 ==>
              r.st.bufferWidth == m.st.bufferWidth && r.st.bufferHeight == m.st.bufferHeight
    ensures r.st.shouldUpdateGeometry
    ensures SameHandshake(r.st, m.st) && SameObjects(r.st, m.st) && r.st.running == m.st.running
    ensures r.log == m.log
  {
    var st := if width != 0 && height != 0
              then m.st.(bufferWidth := width, bufferHeight := height)
              else m.st;
    m.(st := st.(shouldUpdateGeometry := true))
  }

  /** `xdg_toplevel.close`: stop the frame loop. */
  function HandleXDGToplevelClose(m: Machine): (r: Machine)
    ensures !r.st.running
    ensures SameGeometry(r.st, m.st) && SameHandshake(r.st, m.st) && SameObjects(r.st, m.st)
    ensures r.log == m.log
  {
    m.(st := m.st.(running := false))
  }

  /** `xdg_surface.configure`: the first configure ends the wait, and the serial is
      kept until it is acknowledged. */
  function HandleXDGSurfaceConfigure(m: Machine, serial: uint32): (r: Machine)
    ensures !r.st.waitForConfigure && r.st.configureSerial == serial
    ensures SameGeometry(r.st, m.st) && SameObjects(r.st, m.st) && r.st.running == m.st.running
    ensures r.log == m.log
  {
    m.(st := m.st.(waitForConfigure := false, configureSerial := serial))
  }

  /** `zxdg_toplevel_decoration_v1.configure`: accept the compositor's mode by
      setting it back. */
  function HandleXDGToplevelDecorationConfigure(m: Machine, mode: uint32): (r: Machine)
    ensures r.st == m.st
    ensures r.log == m.log + [SetMode(mode)]
  {
    Emit(m, SetMode(mode))
  }

  /** Apply the pending size to the native window, if there is one, and clear the
      dirty flag. */
  function UpdateGeometry(m: Machine): (r: Machine)
    ensures !r.st.shouldUpdateGeometry
    ensures r.st.bufferWidth == m.st.bufferWidth && r.st.bufferHeight == m.st.bufferHeight
    ensures SameHandshake(r.st, m.st) && SameObjects(r.st, m.st) && r.st.running == m.st.running
    ensures m.st.window ==> r.log == m.log + [Resize(m.st.bufferWidth, m.st.bufferHeight)]
    ensures !m.st.window ==> r.log == m.log
  {
    var m' := if m.st.window then Emit(m, Resize(m.st.bufferWidth, m.st.bufferHeight)) else m;
    m'.(st := m'.st.(shouldUpdateGeometry := false))
  }

  /** A second `UpdateGeometry` right after the first sends the same resize again
      and leaves the same state. */
  lemma UpdateGeometryIdempotent(m: Machine)
    ensures var once := UpdateGeometry(m);
            var twice := UpdateGeometry(once);
            && twice.st == once.st
            && Extends(m, once) && Extends(once, twice)
            && Emitted(once, twice) == Emitted(m, once)
            && (m.st.window <==> |Emitted(m, once)| == 1)
  {
    var once := UpdateGeometry(m);
    var twice := UpdateGeometry(once);
    if m.st.window {
      assert Emitted(m, once) == [Resize(m.st.bufferWidth, m.st.bufferHeight)];
      assert Emitted(once, twice) == [Resize(m.st.bufferWidth, m.st.bufferHeight)];
    } else {
      assert Emitted(m, once) == [];
      assert Emitted(once, twice) == [];
    }
  }

  /** A global advertising `iface` is bound: the interface names a slot, and for a
      decoration manager only when decorations are compiled in. */
  predicate Binds(iface: Interface, useDecorations: bool)
  {
    SlotOf(iface).Some? && (iface != ZxdgDecorationManagerV1 || useDecorations)
  }

  /** Deliver one event to the listener registered for it. */
  function Dispatch(m: Machine, e: Event, useDecorations: bool): (r: Machine)
    ensures Extends(m, r)
    ensures forall q :: q in Emitted(m, r) ==> ListenerRequest(q)
    ensures r.st.running == (m.st.running && !e.ToplevelClose?)
    ensures !m.st.waitForConfigure ==> !r.st.waitForConfigure
    ensures r.st.window == m.st.window && r.st.toplevelDecoration == m.st.toplevelDecoration
    ensures !e.ToplevelConfigure? ==> SameGeometry(r.st, m.st)
    ensures !e.SurfaceConfigure? ==> SameHandshake(r.st, m.st)
    ensures !e.Global? ==> SameObjects(r.st, m.st)
    ensures r.st.decorationManager
            == (m.st.decorationManager || (useDecorations && e.Global? && e.iface == ZxdgDecorationManagerV1))
    ensures e.Ping? ==> r.log == m.log + [Pong(e.serial)]
    ensures e.DecorationConfigure? ==> r.log == m.log + [SetMode(e.mode)]
    ensures e.Global? && Binds(e.iface, useDecorations) ==>
              var slot := SlotOf(e.iface).value;
              && r.log == m.log + [Bind(slot, e.name, BindVersion(slot))]
              && Bound(r.st) == Bound(m.st) + {slot}
    ensures e.Global? && !Binds(e.iface, useDecorations) ==> r == m
    ensures !e.Global? && !e.Ping? && !e.DecorationConfigure? ==> r.log == m.log
  {
    match e
    case Global(name, iface, _) => HandleRegistryGlobal(m, name, iface, useDecorations)
    case GlobalRemove(name) => HandleRegistryGlobalRemove(m, name)
    case Ping(serial) => HandleXDGWMBasePing(m, serial)
    case ToplevelConfigure(w, h, states) => HandleXDGToplevelConfigure(m, w, h, states)
    case ToplevelClose => HandleXDGToplevelClose(m)
    case SurfaceConfigure(serial) => HandleXDGSurfaceConfigure(m, serial)
    case DecorationConfigure(mode) => HandleXDGToplevelDecorationConfigure(m, mode)
  }

  /** No close event among `evs`. */
  predicate NoClose(evs: seq<Event>)
  {
    forall i :: 0 <= i < |evs| ==> !evs[i].ToplevelClose?
  }

  /** Deliver a batch of events in order, as one dispatch call does. */
  function DispatchAll(m: Machine, evs: seq<Event>, useDecorations: bool): (r: Machine)
    ensures Extends(m, r)
    ensures forall q :: q in Emitted(m, r) ==> ListenerRequest(q)
    ensures r.st.running == (m.st.running && NoClose(evs))
    ensures !m.st.waitForConfigure ==> !r.st.waitForConfigure
    ensures r.st.window == m.st.window && r.st.toplevelDecoration == m.st.toplevelDecoration
    decreases |evs|
  {
    if |evs| == 0 then m
    else
      var m1 := Dispatch(m, evs[0], useDecorations);
      var r := DispatchAll(m1, evs[1..], useDecorations);
      EmittedConcat(m, m1, r);
      assert NoClose(evs) <==> !evs[0].ToplevelClose? && NoClose(evs[1..]) by {
        if !evs[0].ToplevelClose? && NoClose(evs[1..]) {
          forall i | 0 <= i < |evs| ensures !evs[i].ToplevelClose? {
            if i > 0 { assert evs[i] == evs[1..][i - 1]; }
          }
        }
      }
      r
  }
}

=== FILE: program.dfy ===
/**
  The whole client run, from the zero-initialised state through bring-up into the
  frame loop, and the properties that hold of every run.
 */
module Program {

  import opened Wrappers
  import opened Protocol
  import opened WindowState
  import opened Handlers
  import opened BatchFacts
  import opened WindowBringUp
  import opened FrameLoop

  /** A run: `discovery` is what the initial roundtrip delivers, `waits` the results
      of the blocking dispatches while waiting for the first configure, `frames` the
      results of the loop's non-blocking dispatches. `None` when the client is still
      blocked waiting for its first configure. */
  function Run(discovery: seq<Event>, waits: seq<DispatchResult>, frames: seq<DispatchResult>,
               useDecorations: bool): (r: Option<Frame>)
    ensures r.Some? <==> BringUp(discovery, waits, useDecorations).Some?
    ensures r.Some? ==> Quiescent(r.value.m.st)
  {
    match BringUp(discovery, waits, useDecorations)
    case None => None
    case Some(m) =>
      var f := StartLoop(m);
      RunLoopQuiescent(f, frames, useDecorations);
      Some(RunLoop(f, frames, useDecorations))
  }

  /** Every run creates the native window exactly once, at the end of bring-up,
      directly after acknowledging the first configure. */
  lemma RunCreatesWindowOnce(discovery: seq<Event>, waits: seq<DispatchResult>, frames: seq<DispatchResult>,
                             useDecorations: bool)
    ensures var r := Run(discovery, waits, frames, useDecorations);
            var w := Prepared(discovery, waits, useDecorations);
            var created := w.m.log + [AckConfigure(w.m.st.configureSerial),
                                      CreateWindow(w.m.st.bufferWidth, w.m.st.bufferHeight)];
            r.Some? ==>
              && WindowsCreated(r.value.m.log) == 1
              && |created| <= |r.value.m.log| && r.value.m.log[..|created|] == created
  {
    var r := Run(discovery, waits, frames, useDecorations);
    if r.Some? {
      var b := BringUp(discovery, waits, useDecorations).value;
      BringUpCreatesWindowLast(discovery, waits, useDecorations);
      var f := StartLoop(b);
      var last := RunLoop(f, frames, useDecorations);
      assert r.value == last;
      var rest := Emitted(f.m, last.m);
      assert last.m.log == b.log + rest;
      assert forall q :: q in rest ==> !q.CreateWindow?;
      WindowsCreatedNone(rest);
      WindowsCreatedAppend(b.log, rest);
    }
  }

  /** A run requests a decoration object exactly when decorations are compiled in and
      the initial roundtrip advertised a decoration manager. */
  lemma RunDecoration(discovery: seq<Event>, waits: seq<DispatchResult>, frames: seq<DispatchResult>,
                      useDecorations: bool)
    ensures var r := Run(discovery, waits, frames, useDecorations);
            r.Some? ==>
              (CreateDecoration in r.value.m.log <==> useDecorations && AdvertisesDecorationManager(discovery))
  {
    var r := Run(discovery, waits, frames, useDecorations);
    if r.Some? {
      var b := BringUp(discovery, waits, useDecorations).value;
      BringUpDecoration(discovery, waits, useDecorations);
      var f := StartLoop(b);
      var rest := Emitted(f.m, r.value.m);
      assert r.value.m.log == b.log + rest;
      assert CreateDecoration !in rest;
    }
  }

  /** Once the first configure has arrived the wait stays over for the rest of the
      run, whatever the loop dispatches. */
  lemma RunWaitStaysOver(discovery: seq<Event>, waits: seq<DispatchResult>, frames: seq<DispatchResult>,
                         useDecorations: bool)
    requires Prepared(discovery, waits, useDecorations).Configured?
    ensures var r := Run(discovery, waits, frames, useDecorations);
            r.Some? && !r.value.m.st.waitForConfigure
  {
  }

  /** The loop of a run is still running exactly when none of its dispatches failed
      or delivered a close; a close before the loop starts does not count. */
  lemma RunStopsOnlyOnCloseOrFailure(discovery: seq<Event>, waits: seq<DispatchResult>, frames: seq<DispatchResult>,
                                     useDecorations: bool)
    ensures var r := Run(discovery, waits, frames, useDecorations);
            r.Some? ==>
              && (r.value.m.st.running <==> forall i :: 0 <= i < |frames| ==> KeepsRunning(frames[i]))
              && (r.value.m.st.running ==> r.value.counter == |frames|)
  {
    var b := BringUp(discovery, waits, useDecorations);
    if b.Some? {
      RunLoopStopsOnlyOnCloseOrFailure(StartLoop(b.value), frames, useDecorations);
    }
  }

  /** A run whose first 59 loop dispatches neither fail nor deliver a close, and
      whose 60th loop dispatch succeeds, resizes the native window to 1280x720. */
  lemma RunResizesOnScriptedFrame(discovery: seq<Event>, waits: seq<DispatchResult>, frames: seq<DispatchResult>,
                                  useDecorations: bool)
    requires |frames| >= ScriptedFrame
    requires forall i :: 0 <= i < ScriptedFrame - 1 ==> KeepsRunning(frames[i])
    requires frames[ScriptedFrame - 1].Dispatched?
    ensures var r := Run(discovery, waits, frames, useDecorations);
            r.Some? ==> Resize(ScriptedWidth, ScriptedHeight) in r.value.m.log
  {
    var b := BringUp(discovery, waits, useDecorations);
    if b.Some? {
      var f := StartLoop(b.value);
      assert f.m.st.window;
      var last := RunLoop(f, frames, useDecorations);
      assert Run(discovery, waits, frames, useDecorations) == Some(last);
      RunLoopReachesScriptedFrame(f, frames, useDecorations);
      var rest := Emitted(f.m, last.m);
      assert Resize(ScriptedWidth, ScriptedHeight) in rest;
      assert last.m.log == f.m.log + rest;
    }
  }

  /** A roundtrip that advertises a compositor and a shell binds both, in order. */
  lemma DefaultDiscovery(useDecorations: bool)
    ensures DispatchAll(Initial(), [Global(1, WlCompositor, 4), Global(2, XdgWmBase, 2)], useDecorations)
            == Machine(State(640, 480, false, false, 0, true, true, false, false, false, false),
                       [Bind(CompositorSlot, 1, 4), Bind(WmBaseSlot, 2, 1)])
  {
    var discovery := [Global(1, WlCompositor, 4), Global(2, XdgWmBase, 2)];
    var m0 := Initial();
    var d1 := Dispatch(m0, discovery[0], useDecorations);
    var d2 := Dispatch(d1, discovery[1], useDecorations);
    assert discovery[1..] == [Global(2, XdgWmBase, 2)] && discovery[1..][1..] == [];
    assert DispatchAll(m0, discovery, useDecorations) == d2 by {
      assert DispatchAll(d2, [], useDecorations) == d2;
      assert DispatchAll(d1, discovery[1..], useDecorations) == d2;
    }
    assert d2.log == [Bind(CompositorSlot, 1, 4), Bind(WmBaseSlot, 2, 1)];
  }

  /** A first blocking dispatch with a size-less configure and surface configure 7
      ends the wait with serial 7 pending and the geometry dirty. */
  lemma DefaultWait(useDecorations: bool)
    ensures AwaitConfigure(
              Machine(State(640, 480, false, true, 0, true, true, false, false, false, false),
                      [Bind(CompositorSlot, 1, 4), Bind(WmBaseSlot, 2, 1), Commit]),
              [Dispatched([ToplevelConfigure(0, 0, []), SurfaceConfigure(7)])], useDecorations)
            == Configured(
              Machine(State(640, 480, true, false, 7, true, true, false, false, false, false),
                      [Bind(CompositorSlot, 1, 4), Bind(WmBaseSlot, 2, 1), Commit]))
  {
    var m2 := Machine(State(640, 480, false, true, 0, true, true, false, false, false, false),
                      [Bind(CompositorSlot, 1, 4), Bind(WmBaseSlot, 2, 1), Commit]);
    var evs := [ToplevelConfigure(0, 0, []), SurfaceConfigure(7)];
    var e1 := Dispatch(m2, evs[0], useDecorations);
    var e2 := Dispatch(e1, evs[1], useDecorations);
    assert evs[1..] == [SurfaceConfigure(7)] && evs[1..][1..] == [];
    assert DispatchAll(m2, evs, useDecorations) == e2 by {
      assert DispatchAll(e2, [], useDecorations) == e2;
      assert DispatchAll(e1, evs[1..], useDecorations) == e2;
    }
    assert [Dispatched(evs)][1..] == [];
  }

  /** Starting from 640x480 with a compositor and a shell but no decoration manager,
      a configure without a size suggestion followed by surface configure 7 gives a
      commit, the acknowledgement of 7, and a 640x480 window. */
  lemma DefaultSizeBringUp(useDecorations: bool)
    ensures BringUp([Global(1, WlCompositor, 4), Global(2, XdgWmBase, 2)],
                    [Dispatched([ToplevelConfigure(0, 0, []), SurfaceConfigure(7)])],
                    useDecorations)
            == Some(Machine(
                 State(640, 480, false, false, 0, true, true, false, false, true, false),
                 [Bind(CompositorSlot, 1, 4), Bind(WmBaseSlot, 2, 1), Commit,
                  AckConfigure(7), CreateWindow(640, 480)]))
  {
    var discovery := [Global(1, WlCompositor, 4), Global(2, XdgWmBase, 2)];
    var waits := [Dispatched([ToplevelConfigure(0, 0, []), SurfaceConfigure(7)])];
    DefaultDiscovery(useDecorations);
    DefaultWait(useDecorations);
    var d2 := DispatchAll(Initial(), discovery, useDecorations);
    var m2 := Machine(State(640, 480, false, true, 0, true, true, false, false, false, false),
                      [Bind(CompositorSlot, 1, 4), Bind(WmBaseSlot, 2, 1), Commit]);
    assert BeginConfigure(RequestDecoration(d2)) == m2;
    var e2 := Machine(State(640, 480, true, false, 7, true, true, false, false, false, false), m2.log);
    assert AwaitConfigure(m2, waits, useDecorations) == Configured(e2);
    assert BringUp(discovery, waits, useDecorations) == Some(FinishBringUp(e2));
    assert FinishBringUp(e2).log == e2.log + [AckConfigure(7), CreateWindow(640, 480)];
    assert FinishBringUp(e2).log == [Bind(CompositorSlot, 1, 4), Bind(WmBaseSlot, 2, 1), Commit,
                                     AckConfigure(7), CreateWindow(640, 480)];
    assert FinishBringUp(e2).st == State(640, 480, false, false, 0, true, true, false, false, true, false);
  }

  /** A close that arrives while bring-up waits for the first configure is lost: the
      loop marks itself running on entry and keeps going. */
  lemma CloseBeforeFirstConfigureIsIgnored(useDecorations: bool)
    ensures var r := Run([], [Dispatched([ToplevelClose, SurfaceConfigure(1)])], [Dispatched([])],
                         useDecorations);
            r.Some? && r.value.m.st.running && r.value.counter == 1
  {
    var evs := [ToplevelClose, SurfaceConfigure(1)];
    assert evs[1..] == [SurfaceConfigure(1)];
    assert evs[1..][1..] == [];
    assert [Dispatched(evs)][1..] == [];
    assert [Dispatched([])][1..] == [];
  }

  /** A blocking dispatch that fails before any configure does not stop bring-up:
      serial 0 is acknowledged and the window is created at the initial size. */
  lemma FailedWaitStillCreatesWindow(useDecorations: bool)
    ensures var r := BringUp([], [DispatchFailed], useDecorations);
            && r.Some?
            && r.value.log == [Commit, AckConfigure(0), CreateWindow(InitialWidth, InitialHeight)]
            && r.value.st.waitForConfigure
  {
    var m2 := BeginConfigure(RequestDecoration(DispatchAll(Initial(), [], useDecorations)));
    assert AwaitConfigure(m2, [DispatchFailed], useDecorations) == Failed(m2);
    assert FinishBringUp(m2).log == [Commit] + [AckConfigure(0), CreateWindow(InitialWidth, InitialHeight)];
  }
}

=== FILE: protocol.dfy ===
/**
  The part of the Wayland protocol surface the client consumes: the events the
  compositor delivers to its listeners, the requests the client sends, and the
  result of one dispatch call. Every call into libwayland, wayland-egl, EGL or GL
  that the model tracks becomes one abstract `Request` appended to a log.
 */
module Protocol {

  import opened Wrappers

  /** A Wayland `uint` argument: serials, global names, versions, enum values. */
  type uint32 = x: int | 0 <= x < 0x1_0000_0000

  /** A C `int`: the buffer dimensions and the `int` arguments of
      `xdg_toplevel.configure`. */
  type int32 = x: int | -0x8000_0000 <= x < 0x8000_0000

  /** `zxdg_toplevel_decoration_v1.mode.server_side` in the xdg-decoration protocol. */
  const ModeServerSide: uint32 := 2

  /** An advertised interface name other than the three the client compares against. */
  type OtherInterfaceName = s: string
    | s != "wl_compositor" && s != "xdg_wm_base" && s != "zxdg_decoration_manager_v1"
    witness "wl_output"

  /** The interface name a `wl_registry.global` event advertises. The three names the
      client compares against are constructors; every other name is `Unknown`. */
  datatype Interface =
    | WlCompositor
    | XdgWmBase
    | ZxdgDecorationManagerV1
    | Unknown(name: OtherInterfaceName)

  /** The capability handles of the client's state that a global can be bound into. */
  datatype Slot = CompositorSlot | WmBaseSlot | DecorationManagerSlot

  /** Which slot, if any, an advertised interface is bound into (the `strcmp` chain). */
  function SlotOf(iface: Interface): (r: Option<Slot>)
    ensures r.None? <==> iface.Unknown?
  {
    match iface
    case WlCompositor => Some(CompositorSlot)
    case XdgWmBase => Some(WmBaseSlot)
    case ZxdgDecorationManagerV1 => Some(DecorationManagerSlot)
    case Unknown(_) => None
  }

  /** The version the client asks for when binding a slot; the advertised version is
      not consulted. */
  function BindVersion(slot: Slot): uint32
  {
    match slot
    case CompositorSlot => 4
    case WmBaseSlot => 1
    case DecorationManagerSlot => 1
  }

  /** An event delivered to one of the client's listeners. */
  datatype Event =
    | Global(name: uint32, iface: Interface, version: uint32)      // wl_registry.global
    | GlobalRemove(name: uint32)                                  // wl_registry.global_remove
    | Ping(serial: uint32)                                        // xdg_wm_base.ping
    | ToplevelConfigure(width: int32, height: int32, states: seq<uint32>) // xdg_toplevel.configure
    | ToplevelClose                                               // xdg_toplevel.close
    | SurfaceConfigure(serial: uint32)                            // xdg_surface.configure
    | DecorationConfigure(mode: uint32)                           // zxdg_toplevel_decoration_v1.configure

  /** A request the client sends, or a call into wayland-egl or the renderer. */
  datatype Request =
    | Bind(slot: Slot, name: uint32, version: uint32)  // wl_registry_bind
    | Pong(serial: uint32)                             // xdg_wm_base_pong
    | CreateDecoration                                 // get_toplevel_decoration
    | SetMode(mode: uint32)                            // zxdg_toplevel_decoration_v1_set_mode
    | Commit                                           // wl_surface_commit
    | AckConfigure(serial: uint32)                     // xdg_surface_ack_configure
    | Resize(width: int32, height: int32)              // wl_egl_window_resize
    | CreateWindow(width: int32, height: int32)        // wl_egl_window_create
    | Present                                          // clear to a fixed colour and swap

  /** The requests a listener may send while it handles an event. */
  predicate ListenerRequest(q: Request)
  {
    q.Bind? || q.Pong? || q.SetMode?
  }

  /** The outcome of one `wl_display_dispatch` or `wl_display_dispatch_pending` call:
      the events it delivered, in order, or the -1 error result (which delivers none). */
  datatype DispatchResult = Dispatched(events: seq<Event>) | DispatchFailed
}

=== FILE: window_state.dfy ===
/**
  The client's window state (`wayland_state` plus the `GlobalRunning` flag), with
  the object handles reduced to presence bits, and the `Machine` that pairs it with
  the append-only log of requests sent so far.
 */
module WindowState {

  import opened Protocol

  /** The buffer size the window starts with. */
  const InitialWidth: int32 := 640
  const InitialHeight: int32 := 480

  /** The frame on which the loop changes the geometry on its own, and the size it sets. */
  const ScriptedFrame: nat := 60
  const ScriptedWidth: int32 := 1280
  const ScriptedHeight: int32 := 720

  datatype State = State(
    bufferWidth: int32,
    bufferHeight: int32,
    shouldUpdateGeometry: bool,   // the geometry-dirty flag
    waitForConfigure: bool,       // still waiting for the first xdg_surface.configure
    configureSerial: uint32,      // serial to acknowledge; 0 means none pending
    compositor: bool,             // wl_compositor bound
    wmBase: bool,                 // xdg_wm_base bound
    decorationManager: bool,      // zxdg_decoration_manager_v1 bound
    toplevelDecoration: bool,     // zxdg_toplevel_decoration_v1 created
    window: bool,                 // wl_egl_window created
    running: bool                 // GlobalRunning
  )

  /** The state together with every request sent so far, oldest first. */
  datatype Machine = Machine(st: State, log: seq<Request>)

  /** The zero-initialised state with the initial buffer size, before any request. */
  function Initial(): (r: Machine)
    ensures r.log == []
    ensures r.st.bufferWidth == InitialWidth && r.st.bufferHeight == InitialHeight
    ensures r.st.configureSerial == 0 && !r.st.window && !r.st.running
    ensures !r.st.shouldUpdateGeometry && !r.st.waitForConfigure && !r.st.toplevelDecoration
    ensures Bound(r.st) == {}
  {
    Machine(State(InitialWidth, InitialHeight, false, false, 0,
                  false, false, false, false, false, false), [])
  }

  /** Sends one request. */
  function Emit(m: Machine, q: Request): Machine
  {
    m.(log := m.log + [q])
  }

  /** `after` was reached from `before` by only appending to the log. */
  predicate Extends(before: Machine, after: Machine)
  {
    |before.log| <= |after.log| && after.log[..|before.log|] == before.log
  }

  /** The requests sent between `before` and `after`. */
  function Emitted(before: Machine, after: Machine): seq<Request>
    requires Extends(before, after)
  {
    after.log[|before.log|..]
  }

  /** The requests sent over two consecutive stretches are those of the first,
      then those of the second. */
  lemma EmittedConcat(a: Machine, b: Machine, c: Machine)
    requires Extends(a, b) && Extends(b, c)
    ensures Extends(a, c)
    ensures Emitted(a, c) == Emitted(a, b) + Emitted(b, c)
  {
    assert c.log[..|a.log|] == c.log[..|b.log|][..|a.log|];
    assert c.log[|a.log|..] == c.log[|a.log|..|b.log|] + c.log[|b.log|..];
  }

  /** A request that creates the native window or a decoration object. */
  predicate CreatesObject(q: Request)
  {
    q.CreateWindow? || q.CreateDecoration?
  }

  /** No request of `s` creates the native window or a decoration object. */
  predicate CreatesNothing(s: seq<Request>)
  {
    forall q :: q in s ==> !CreatesObject(q)
  }

  lemma CreatesNothingConcat(a: seq<Request>, b: seq<Request>)
    requires CreatesNothing(a) && CreatesNothing(b)
    ensures CreatesNothing(a + b)
  {
  }

  /** The capability slots a state has bound. */
  function Bound(st: State): set<Slot>
  {
    (if st.compositor then {CompositorSlot} else {})
    + (if st.wmBase then {WmBaseSlot} else {})
    + (if st.decorationManager then {DecorationManagerSlot} else {})
  }

  /** Same buffer size and dirty flag. */
  predicate SameGeometry(a: State, b: State)
  {
    a.bufferWidth == b.bufferWidth && a.bufferHeight == b.bufferHeight
    && a.shouldUpdateGeometry == b.shouldUpdateGeometry
  }

  /** Same configure handshake fields. */
  predicate SameHandshake(a: State, b: State)
  {
    a.waitForConfigure == b.waitForConfigure && a.configureSerial == b.configureSerial
  }

  /** Same capability handles bound. */
  predicate SameCapabilities(a: State, b: State)
  {
    a.compositor == b.compositor && a.wmBase == b.wmBase && a.decorationManager == b.decorationManager
  }

  /** Same protocol objects and native window. */
  predicate SameObjects(a: State, b: State)
  {
    a.compositor == b.compositor && a.wmBase == b.wmBase
    && a.decorationManager == b.decorationManager
    && a.toplevelDecoration == b.toplevelDecoration && a.window == b.window
  }

  /** Occurrences of `CreateWindow` in a log. */
  function WindowsCreated(log: seq<Request>): nat
  {
    if |log| == 0 then 0
    else WindowsCreated(log[..|log| - 1]) + (if log[|log| - 1].CreateWindow? then 1 else 0)
  }

  lemma {:induction false} WindowsCreatedAppend(a: seq<Request>, b: seq<Request>)
    ensures WindowsCreated(a + b) == WindowsCreated(a) + WindowsCreated(b)
    decreases |b|
  {
    if |b| == 0 {
      assert a + b == a;
    } else {
      assert (a + b)[..|a + b| - 1] == a + b[..|b| - 1];
      WindowsCreatedAppend(a, b[..|b| - 1]);
    }
  }

  /** A log with no `CreateWindow` adds nothing to the count. */
  lemma {:induction false} WindowsCreatedNone(log: seq<Request>)
    requires forall q :: q in log ==> !q.CreateWindow?
    ensures WindowsCreated(log) == 0
    decreases |log|
  {
    if |log| > 0 {
      assert log[..|log| - 1] <= log;
      WindowsCreatedNone(log[..|log| - 1]);
    }
  }
}

=== FILE: wrappers.dfy ===
/** The optional-value datatype used where the client may never get past a step. */
module Wrappers {

  datatype Option<+T> = None | Some(value: T)
}
